=== FILE: README.md ===
# Intern-Logger in Dafny

Intern-Logger is a web application where interns record their daily work and
administrators review it. Interns hold the role `user` and administrators the role `admin`.
An intern adds and edits work logs: a date in the last seven days, a title, a description
and hours. They browse their logs, see a dashboard with totals and a per-day heat map, and
read the feedback an administrator left. An administrator sees global metrics and lists
the interns with their log counts. The administrator can activate or deactivate an intern,
write one feedback text per log, and produce a PDF report per intern.

Three server-side parts complete the application:
- a request-time route guard, which gives each request its sign-in, scope and root redirects;
- a webhook, which mirrors the identity provider's user events into the `users` table;
- a `GET /api/users` route, which returns the user rows that pass a schema.

This project models the decision logic of each of these pieces as pure Dafny functions
and proves what the application promises about them. Queries to the data store, answers
of the identity provider and the current time are parameters of the model. A query is
either `Loaded(rows)` or `FetchFailed(message)`.

There is one module per source file:

- `Common`: optional values, JavaScript truthiness, the `\s` whitespace class and
  `trim`, decimal rendering with its parse-back, and the "missing hours count as 0" sum.
- `RouteGuard` (`src/middleware.ts`): the guard, plus a reference policy written as an
  ordered rule list `PublicRule | AuthRule | ScopeRule | RootRedirectRule`, evaluated
  first match wins.
- `AuthComplete`: the post-sign-in landing page.
- `LogForm`, `LogView`, `LogList`, `UserDashboard`: the intern's pages.
- `AdminDashboard`, `AdminUsers`, `FeedbackForm`, `AdminReport`: the administrator's pages.
- `UsersApi`: the users route.
- `ClerkWebhook`: the identity-provider webhook.

The reference policy checks the public allow-list before anything else. The middleware
checks the scope and root rules for every signed-in request, public or not.
`RouteGuard.GuardFollowsPolicy` proves the two agree on every request: no public prefix
starts with `/admin` or `/user`, and none equals `/`. The model follows the code's order.

## Model

| member | source | states |
|---|---|---|
| RouteGuard.Guard | src/middleware.ts:16-50 | a redirect only ever targets `/unauthorized`, `/admin/dashboard` or `/user/dashboard`; sign-in redirects happen only without a session, role redirects only with one |
| RouteGuard.GuardFollowsPolicy | src/middleware.ts:5-50 | the middleware's decision equals the first matching rule of the ordered list public, authentication, scope, root redirect |
| RouteGuard.SignInIff | src/middleware.ts:20-22 | a request is sent to sign in exactly when it has no user id and its path does not start with a public prefix, ignoring the case of ASCII letters |
| RouteGuard.PublicIgnoresCase | src/middleware.ts:5-10 | two paths that differ only in the case of their letters are both public or both not, since the matcher ignores case |
| RouteGuard.PublicOfFolded | src/middleware.ts:5-10 | a path is public exactly when its lower-case form is |
| RouteGuard.PublicIsUnscoped | src/middleware.ts:5-10 | a path with a public prefix, in any letter case, does not start with `/admin` or `/user` and is not `/` |
| RouteGuard.PublicAlwaysPasses | src/middleware.ts:5-10 | a public path is passed on for every session and every role |
| RouteGuard.AdminScopeDenied | src/middleware.ts:31-33 | signed in, path under `/admin`, role not `admin` (absent included): redirect to `/unauthorized` |
| RouteGuard.UserScopeDenied | src/middleware.ts:35-37 | signed in, path starting with `/user` (so also `/users…`), role not `user`: redirect to `/unauthorized` |
| RouteGuard.UnauthorizedIff | src/middleware.ts:25-37 | the guard answers `/unauthorized` exactly when a signed-in request enters a scope whose role it lacks |
| RouteGuard.RootRedirects | src/middleware.ts:40-46 | signed in on `/`: admin goes to `/admin/dashboard`, user to `/user/dashboard`, any other or no role passes |
| RouteGuard.OwnersPassTheirScope | src/middleware.ts:31-37 | an admin is never redirected away from an `/admin` path, a user never from a `/user` path |
| RouteGuard.NoRoleInBothScopes | src/middleware.ts:31-37 | no role, present or absent, is let into both scopes |
| RouteGuard.SignedOutIgnoresRole | src/middleware.ts:20-25 | without a user id the role is never consulted: the decision is pass or sign in, the same for any role |
| AuthComplete.Landing | src/app/auth/complete/page.tsx:22-41 | nothing happens until the session is loaded; signed out goes to `/`; signed in goes to the admin home exactly for `admin`, to the user home exactly for `user`, and to `/unauthorized` otherwise |
| AuthComplete.LandingPassesGuard | src/app/auth/complete/page.tsx:31-40 | the landing path chosen for a signed-in session is one the route guard lets that session open |
| AuthComplete.LandingMatchesRootRedirect | src/app/auth/complete/page.tsx:31-36 | for the two known roles the landing page agrees with the guard's own redirect of `/` |
| LogForm.Validate | src/app/user/log/page.tsx:32-48 | the schema reports no issue exactly when the date lies in the seven-day window, title and description are non-empty and hours are a number of at least 1; at most one issue per field |
| LogForm.ValidateReportsEachField | src/app/user/log/page.tsx:33-47 | each field is reported exactly when its own rule is broken |
| LogForm.IssueMessages | src/app/user/log/page.tsx:40-47 | every issue carries the schema's message for its field; hours that are not a number give "Enter a number", and a number below 1 gives "Hours must be at least 1" |
| LogForm.DefaultFormIssues | src/app/user/log/page.tsx:64-69 | the untouched form, dated now with 1 hour, fails exactly on title and description |
| LogForm.CalendarMatchesSchema | src/app/user/log/page.tsx:183-186 | a form's date is reported by the schema exactly when the calendar greys that date out, so a picked date never fails validation |
| LogForm.LoadForEdit | src/app/user/log/page.tsx:74-107 | without an id or on a fetch error the form is untouched; otherwise it holds the stored log's values and is locked exactly when the log has feedback |
| LogForm.ControlsFor | src/app/user/log/page.tsx:142 | fields disabled, submit button hidden and lock notice shown each exactly when feedback was given |
| LogForm.FeedbackLocksForm | src/app/user/log/page.tsx:94-100 | opening a log that has a feedback row disables every field and removes the submit button |
| LogForm.Submit | src/app/user/log/page.tsx:109-140 | no user or a rejected write changes nothing and stays; otherwise an edit updates the row with that id and an add appends a row owned by the user, either storing the date's day, the title, the description and the hours; then the page goes to `/user/logs` |
| LogForm.MidnightOfDay | src/app/user/log/page.tsx:96 | reading a stored day back gives the UTC midnight that starts the submitted date's day: the same day, at most a day earlier, and equal exactly for a midnight |
| LogForm.SubmitThenReload | src/app/user/log/page.tsx:94-97 | reopening the saved log for editing shows the submitted title, description and hours and the midnight of the submitted day, after an insert or an update |
| LogForm.EdgeDayReloadsOutsideWindow | src/app/user/log/page.tsx:37-39 | a log dated on the window's first day reopens with a date inside the window exactly when the page was opened at a UTC midnight |
| LogForm.SubmitKeepsOwners | src/app/user/log/page.tsx:118-133 | no submit changes the owner of any existing row |
| LogView.OnMount | src/app/user/log-view/page.tsx:28-32 | a missing or empty id sends the page to `/user/logs`; otherwise that id is fetched |
| LogView.Normalise | src/app/user/log-view/page.tsx:59-62 | the fetched log keeps its fields and its feedback becomes the first list element, absent for an absent or empty list |
| LogView.AfterFetch | src/app/user/log-view/page.tsx:56-65 | loading ends; an error keeps the shown log, success shows the normalised log |
| LogView.Render | src/app/user/log-view/page.tsx:71-120 | loading, "Log not found." without a log, otherwise the details with an Edit link to `/user/log?id=…` exactly when no feedback exists |
| LogView.FailedFetchShowsNotFound | src/app/user/log-view/page.tsx:56-77 | a failed first fetch ends on "Log not found." |
| LogView.EditLinkIffNoFeedback | src/app/user/log-view/page.tsx:79 | after a fetch the Edit link appears exactly when the log's feedback list is absent or empty |
| LogView.LinksStayInUserScope | src/app/user/log-view/page.tsx:113-124 | the Edit and Back links lead to pages the guard opens for a `user` session |
| LogList.Normalise | src/app/user/logs/page.tsx:43-51 | `data \|\| []`: one item per row with its fields kept and its feedback reduced to the first element of a non-empty list |
| LogList.AfterFetch | src/app/user/logs/page.tsx:40-52 | an error keeps the shown list; success replaces it with the normalised rows |
| LogList.TableFollowsFetch | src/app/user/logs/page.tsx:99-119 | after a fetch, line i is numbered i + 1, shows row i's title, date and hours, is "Received" exactly when its feedback list is non-empty and "Pending" otherwise, and links to `/user/log-view?id=<id>` |
| LogList.Render | src/app/user/logs/page.tsx:72-76 | loading, "No logs found." exactly for an empty list, otherwise the table |
| LogList.Mounted | src/app/user/logs/page.tsx:24-58 | without a signed-in user nothing is fetched and the empty-list notice shows; a fetch of n > 0 rows shows a table of n lines |
| LogList.MountedNoticeIff | src/app/user/logs/page.tsx:24-76 | after mounting, the empty-list notice shows exactly when no user is signed in, the fetch failed, or the store returned no rows |
| UserDashboard.CountPerDay | src/app/user/dashboard/page.tsx:48-54 | one bucket per distinct day in order of first appearance; each count is that day's number of logs and at least 1; the counts add up to the number of logs |
| UserDashboard.AfterFetch | src/app/user/dashboard/page.tsx:38-54 | an error sets nothing; otherwise the log total is the row count, hours are summed with missing as 0, and the heat map holds one bucket per distinct day, in order of first appearance, each counting that day's rows and at least 1 |
| UserDashboard.ClassForValue | src/app/user/dashboard/page.tsx:138-142 | the empty class exactly for no value or a zero count; every non-negative count gets one of the five classes |
| UserDashboard.ClassLevel | src/app/user/dashboard/page.tsx:139-141 | a day with n ≥ 1 logs gets level min(n, 4) |
| UserDashboard.BucketsAreNeverEmptyColoured | src/app/user/dashboard/page.tsx:138-142 | every bucket with a log gets a non-empty colour level |
| UserDashboard.Tooltip | src/app/user/dashboard/page.tsx:131-137 | no tooltip exactly when the value has no date; otherwise it starts with "<date>: " |
| UserDashboard.TooltipPlural | src/app/user/dashboard/page.tsx:133-135 | the tooltip ends in " logs" exactly when the count is not 1, and in " log" exactly when it is 1 |
| UserDashboard.TooltipCount | src/app/user/dashboard/page.tsx:133 | after "<date>: " the tooltip shows the count, whose digits read back as the count |
| AdminDashboard.Gate | src/app/admin/dashboard/page.tsx:23-28 | waits exactly until the session is loaded, confirms exactly the `admin` claim, and otherwise pushes `/unauthorized` |
| AdminDashboard.MetricsOnlyForAdmins | src/app/admin/dashboard/page.tsx:31-32 | metrics are fetched exactly when the loaded session carries the `admin` role |
| AdminDashboard.LeavesLoadingOnlyForAdmins | src/app/admin/dashboard/page.tsx:23-70 | the page leaves "Loading..." exactly for a loaded `admin` session, which then fetches the metrics; any other loaded session stays on it while being sent to `/unauthorized` |
| AdminDashboard.GateAgreesWithGuard | src/app/admin/dashboard/page.tsx:23-28 | a session the route guard lets onto `/admin/dashboard` is confirmed by the page's own gate |
| AdminDashboard.Average | src/app/admin/dashboard/page.tsx:58 | 0 without logs, otherwise the value that times the log count gives the hour sum |
| AdminDashboard.AfterLogsFetch | src/app/admin/dashboard/page.tsx:46-59 | an error keeps every figure; success sets the log count, the hour sum with missing as 0, and the average; the user count is untouched |
| AdminDashboard.AfterUsersFetch | src/app/admin/dashboard/page.tsx:38-43 | an error keeps the user count; success sets it; the log figures are untouched |
| AdminDashboard.AverageWithinBounds | src/app/admin/dashboard/page.tsx:51-58 | when every log has between lo and hi hours, the average lies between lo and hi |
| AdminUsers.Enrich | src/app/admin/users/page.tsx:44-52 | each user keeps its fields and gets the count query's answer, or 0 without one |
| AdminUsers.AfterFetch | src/app/admin/users/page.tsx:38-55 | loading ends; an error keeps the list, success shows the enriched users |
| AdminUsers.ToggleStatus | src/app/admin/users/page.tsx:61-68 | the user with that id gets the negated flag; every other user is unchanged |
| AdminUsers.ToggleTwiceRestores | src/app/admin/users/page.tsx:65-67 | toggling with the shown flag and then with the new flag restores the list |
| AdminUsers.ToggleChangesOnlyThatUser | src/app/admin/users/page.tsx:65-67 | a row changes exactly when it has the id and its flag was the one passed in |
| AdminUsers.LogsPageOf | src/app/admin/users/page.tsx:113 | a user's logs page lies under `/admin` |
| AdminUsers.LogsPageIsAdminOnly | src/app/admin/users/page.tsx:137-139 | the guard opens the logs page for an admin session and sends a `user` session to `/unauthorized` |
| AdminUsers.Render | src/app/admin/users/page.tsx:91-127 | five skeleton rows exactly while loading, "No users found." exactly for an empty list, otherwise line i is numbered i + 1, shows user i (name, e-mail, log count), is labelled "Active" exactly for an active user and links to that user's logs page |
| FeedbackForm.Find | src/app/admin/users/feedback/page.tsx:83-87 | the first row of the log, and the end of the table exactly when the log has no row |
| FeedbackForm.HandleSubmit | src/app/admin/users/feedback/page.tsx:75-134 | a lookup error other than "not found", or a rejected write, stops the submit; a found row gets the new text; otherwise one row is appended; the page then goes to the owner's logs page when the owner is known |
| FeedbackForm.MatchCountAtMostOne | src/app/admin/users/feedback/page.tsx:83-87 | in a table with one row per log, a log matches at most one row |
| FeedbackForm.SubmitKeepsOnePerLog | src/app/admin/users/feedback/page.tsx:94-120 | a submit never creates a second feedback row for a log |
| FeedbackForm.SubmitStoresText | src/app/admin/users/feedback/page.tsx:94-120 | after a successful submit the log has exactly one row, which holds the submitted text; rows of other logs are unchanged |
| FeedbackForm.LastTextWins | src/app/admin/users/feedback/page.tsx:94-120 | after two submits for a log its one row holds the second text |
| FeedbackForm.Prefill | src/app/admin/users/feedback/page.tsx:19-73 | without a log id or after a failed log or owner query the form is untouched; otherwise it shows owner, title and description (missing as "") and any existing feedback text |
| FeedbackForm.SubmitThenPrefill | src/app/admin/users/feedback/page.tsx:56-64 | reopening the form after a successful submit shows the text just submitted |
| AdminReport.Load | src/app/admin/report/page.tsx:26-51 | without a user id nothing is fetched; otherwise the name falls back to "Unknown User" and the tasks to an empty list |
| AdminReport.FileName | src/app/admin/report/page.tsx:93 | the file name ends in `_Report.pdf` |
| AdminReport.CollapseHasNoWhitespace | src/app/admin/report/page.tsx:93 | the name part of the file name holds no whitespace |
| AdminReport.CollapseRun | src/app/admin/report/page.tsx:93 | a word followed by a whitespace run becomes the word and one underscore |
| AdminReport.CollapseFixedIff | src/app/admin/report/page.tsx:93 | a name is left unchanged exactly when it has no whitespace |
| AdminReport.CollapseIdempotent | src/app/admin/report/page.tsx:93 | replacing twice gives the same result as replacing once |
| AdminReport.CollapseKeepsVisible | src/app/admin/report/page.tsx:93 | no character other than whitespace and underscores is lost, added or reordered |
| AdminReport.FileNameShape | src/app/admin/report/page.tsx:93 | the name part has no whitespace and keeps the visible characters; a whitespace-free name is used as it is |
| AdminReport.ListItems | src/app/admin/report/page.tsx:104-112 | an empty task list shows "No tasks found."; otherwise one "<title> — <hours> hrs" item per task |
| AdminReport.PdfLinesNumbered | src/app/admin/report/page.tsx:64-67 | PDF line i is the page's item i after the number i + 1, and that number reads back as i + 1 |
| AdminReport.HeadingMatchesFileName | src/app/admin/report/page.tsx:58-93 | the PDF heading and the saved file name show the same visible characters of the intern's name, in order |
| AdminReport.LoadedHeadingNamesSomeone | src/app/admin/report/page.tsx:39 | once a user id is given the heading is never the bare "Report for ", and it names "Unknown User" when the store gave no name |
| UsersApi.ParseRow | src/app/api/users/route.ts:6-14 | a row parses exactly when id and role are non-empty, the name has 1 to 255 characters, the e-mail has the e-mail format, `active` is present and both timestamps are ISO dates; fields are renamed |
| UsersApi.ValidateRows | src/app/api/users/route.ts:45-64 | the loop returns exactly the parses of the rows that pass, in order |
| UsersApi.KeptIsSelection | src/app/api/users/route.ts:47-64 | the response is an order-preserving selection of the rows: every passing row appears, at increasing positions |
| UsersApi.KeptLength | src/app/api/users/route.ts:45-66 | the response is never longer than the table, and has the same length exactly when every row passes |
| UsersApi.KeptConforms | src/app/api/users/route.ts:50-58 | every returned record satisfies the schema and is some row with `full_name`, `created_at` and `updated_at` renamed |
| UsersApi.KeptAppend | src/app/api/users/route.ts:47-64 | the rows are judged one by one: the result for a concatenation is the concatenation of the results |
| UsersApi.Get | src/app/api/users/route.ts:20-66 | missing URL or key gives 500 "Supabase credentials missing" before any query; a query error or null data gives 400 with the message or "No data"; otherwise the valid records |
| ClerkWebhook.FirstEmail | src/app/api/webhooks/clerk/route.ts:43 | present exactly when the address list has a truthy first address |
| ClerkWebhook.StoredRole | src/app/api/webhooks/clerk/route.ts:54-73 | the metadata role when the lookup returns a truthy one, otherwise `user`, including when the lookup throws |
| ClerkWebhook.Post | src/app/api/webhooks/clerk/route.ts:21-102 | a failed signature gives 400 "Invalid signature" and an unknown event type 400 "Unsupported event type", neither writing anything; the answer is 200 exactly for a supported event with an id, a first address and a successful upsert; an upsert error after a valid payload gives 500 with its message and writes no row; whenever the route gets as far as the upsert (200 or 500) it records the default role exactly when the lookup answered without a truthy role |
| ClerkWebhook.AcceptedEventUpserts | src/app/api/webhooks/clerk/route.ts:76-95 | an accepted event writes one active row keyed on the first address, with the id, trimmed name and stored role; other addresses keep their rows |
| ClerkWebhook.MissingFieldsRejected | src/app/api/webhooks/clerk/route.ts:43-45 | a missing id or first address gives 400 "Invalid payload" without any write |
| ClerkWebhook.RedeliveryIsHarmless | src/app/api/webhooks/clerk/route.ts:76-85 | delivering the same event twice leaves the table as one delivery does |
| ClerkWebhook.TrimShape | src/app/api/webhooks/clerk/route.ts:47 | the trimmed name is a slice of the joined parts with only whitespace cut from both ends, and neither end is whitespace |
| ClerkWebhook.TrimFixedIff | src/app/api/webhooks/clerk/route.ts:47 | a string is its own trim exactly when it is empty or neither end is whitespace |
| ClerkWebhook.TrimIdempotent | src/app/api/webhooks/clerk/route.ts:47 | trimming twice gives the same result as trimming once |
| ClerkWebhook.FullNameTrimmed | src/app/api/webhooks/clerk/route.ts:47 | the stored full name never starts or ends with whitespace |
| ClerkWebhook.FullNameOfWords | src/app/api/webhooks/clerk/route.ts:47 | for whitespace-free parts: both give "first last", one gives that part, none gives "" |
| Common.FirstOrNone | src/app/user/logs/page.tsx:46-49 | present exactly for a non-empty list, and then its first element |
| Common.ParseNatToString | src/app/admin/report/page.tsx:66 | a rendered line number reads back as the number |

## Left out

- Queries to the data store and calls to the identity provider (`auth()`, `getToken`,
  `getUser`, `updateUserMetadata`) are inputs of the model: a query's answer, a
  fault flag, a lookup result. What happens when `auth()` throws is not modelled.
- The middleware's `matcher` regular expression is framework path matching. The model
  assumes the guard sees every page request.
- The webhook's Svix signature check is an input, `None` for a rejected signature.
  Its one-second wait is left out.
- The schema's e-mail format is the parameter `isEmail`. Its datetime format is the
  four-digit-year range of `toISOString`. An invalid `new Date(…)` is an absent
  timestamp, and the exception it raises counts as a failed parse.
- Dates are millisecond instants: "seven days ago" is the current instant minus seven
  days. Time zones, daylight saving and the 365-day lookback string are not modelled.
- The `date_worked` column holds a day. The form stores it as a day number (days since
  1970-01-01, UTC), the day of the submitted instant; the list, the view and the
  dashboard carry it as its ISO date text. The rendering between the two is not
  modelled.
- Hours are integers, although the schema accepts any number of at least 1.
  `AdminDashboard.Average` is a real quotient. Its `toFixed(1)` display is not modelled.
- The PDF's vertical offsets (`length / 50` arithmetic), font sizes, line wrapping and
  saving are not modelled. Only the texts of the lines and the file name are.
- The three free-text areas of the report page are plain React state and are left out.
- The report's "top five by hours" selection is done by the store's `order`/`limit`.
  The model takes the returned rows as given.
- The `Promise.all` enrichment of the users page is modelled sequentially, as a map
  from user id to count. The feedback form's non-atomic check-then-insert is modelled
  as one step.
- `FeedbackForm.HandleSubmit` requires a non-empty log id. The source would query and
  insert with a null `log_id`, which the store's schema decides. `GenuineFault` assumes
  a failed lookup never carries the not-found code.
- String lengths are counts of Unicode scalar values. JavaScript and the schema's
  `min`/`max` count UTF-16 code units, which differ for characters outside the Basic
  Multilingual Plane.
- `UserDashboard.Tooltip` renders the count as an integer. JavaScript's exponent form
  for numbers of 10^21 and above is not modelled.
- `AuthComplete.Landing` reads the role from the user's public metadata. The guard reads
  it from the session claim. The model treats them as the same value.
- `LogForm.Validate` does not tell zod's own "Invalid date" message apart from the
  window message. Both are an issue on the date field.
- `LogForm.Submit` requires values the schema accepted, because the form library calls
  it only after validation passes.
- The clean-up `catch` of `GET /api/users`, which answers 500 on an unexpected exception,
  is not modelled. The model has no other exception.
- Alerts, console logging, styling, skeleton animation and the pages outside the core
  are not modelled.

=== FILE: admin_dashboard.dfy ===
/** The administrator's dashboard: a client-side role gate on the session's `role`
    claim, then the number of non-admin users, the number of logs, the total hours and
    the average hours per log. */
module AdminDashboard {
  import opened Common
  import RouteGuard

  /** The gate's reaction once per change of the session. */
  datatype GateEffect = WaitForSession | ConfirmAdmin | PushUnauthorized

  function Gate(isLoaded: bool, role: Option<string>): (e: GateEffect)
    ensures e == WaitForSession <==> !isLoaded
    ensures e == ConfirmAdmin <==> isLoaded && role == Some(RouteGuard.AdminRole)
  {
    if !isLoaded then WaitForSession
    else if role == Some(RouteGuard.AdminRole) then ConfirmAdmin
    else PushUnauthorized
  }

  /** The page's confirmed role after the gate's effect: `"admin"` once confirmed. */
  function ConfirmedRole(confirmed: Option<string>, e: GateEffect): Option<string>
  {
    if e == ConfirmAdmin then Some(RouteGuard.AdminRole) else confirmed
  }

  /** The metrics are fetched only once the role is confirmed. */
  predicate FetchesMetrics(confirmed: Option<string>)
  {
    confirmed == Some(RouteGuard.AdminRole)
  }

  /** Starting from no confirmed role, metrics are fetched after the gate exactly when the
      session has loaded and carries the `admin` role. */
  lemma MetricsOnlyForAdmins(isLoaded: bool, role: Option<string>)
    ensures FetchesMetrics(ConfirmedRole(None, Gate(isLoaded, role))) <==>
      isLoaded && role == Some(RouteGuard.AdminRole)
  {
  }

  /** The page shows "Loading..." while the session is not loaded or no role is confirmed. */
  predicate ShowsLoading(isLoaded: bool, confirmed: Option<string>)
  {
    !isLoaded || confirmed.None?
  }

  /** From no confirmed role, the page leaves the loading view after the gate exactly for
      a loaded `admin` session, and then it fetches the metrics; every other session stays
      on "Loading..." while it is pushed to `/unauthorized`. */
  lemma LeavesLoadingOnlyForAdmins(isLoaded: bool, role: Option<string>)
    ensures var confirmed := ConfirmedRole(None, Gate(isLoaded, role));
      && (!ShowsLoading(isLoaded, confirmed) <==> isLoaded && role == Some(RouteGuard.AdminRole))
      && (!ShowsLoading(isLoaded, confirmed) ==> FetchesMetrics(confirmed))
      && (ShowsLoading(isLoaded, confirmed) && isLoaded ==> Gate(isLoaded, role) == PushUnauthorized)
  {
  }

  /** The gate agrees with the route guard: a signed-in session the guard lets through to
      the dashboard's path is confirmed by the page, never sent to `/unauthorized`. */
  lemma GateAgreesWithGuard(userId: string, role: Option<string>)
    requires userId != ""
    requires RouteGuard.Guard(RouteGuard.Request(Some(userId), role, RouteGuard.AdminHome)) == RouteGuard.Next
    ensures Gate(true, role) == ConfirmAdmin
  {
  }

  /** The dashboard's four figures. */
  datatype Metrics = Metrics(numUsers: Option<int>, numLogs: Option<nat>, totalHours: Option<int>, avgHours: Option<real>)

  /** The average hours per log, 0 when there are no logs. */
  function Average(sum: int, count: nat): (avg: real)
    ensures count == 0 ==> avg == 0.0
    ensures count > 0 ==> avg * (count as real) == sum as real
  {
    if count > 0 then (sum as real) / (count as real) else 0.0
  }

  /** The log figures computed from the fetched `hours_worked` column; a failed fetch
      leaves every log figure as it was. */
  function AfterLogsFetch(m: Metrics, res: Fetch<seq<Option<int>>>): (m': Metrics)
    ensures m'.numUsers == m.numUsers
    ensures res.FetchFailed? ==> m' == m
    ensures res.Loaded? ==> m'.numLogs == Some(|res.data|)
    ensures res.Loaded? ==> m'.totalHours == Some(SumHours(res.data))
    ensures res.Loaded? && |res.data| == 0 ==> m'.avgHours == Some(0.0) && m'.totalHours == Some(0)
    ensures res.Loaded? && |res.data| > 0 ==>
      m'.avgHours.Some? && m'.avgHours.value * (|res.data| as real) == SumHours(res.data) as real
  {
    match res
    case FetchFailed(_) => m
    case Loaded(hours) =>
      var count := |hours|;
      var sum := SumHours(hours);
      m.(numLogs := Some(count), totalHours := Some(sum), avgHours := Some(Average(sum, count)))
  }

  /** The user count from the `users` query; a failed query leaves it as it was. */
  function AfterUsersFetch(m: Metrics, res: Fetch<Option<int>>): (m': Metrics)
    ensures m'.numLogs == m.numLogs && m'.totalHours == m.totalHours && m'.avgHours == m.avgHours
    ensures res.FetchFailed? ==> m'.numUsers == m.numUsers
    ensures res.Loaded? ==> m'.numUsers == res.data
  {
    match res
    case FetchFailed(_) => m
    case Loaded(count) => m.(numUsers := count)
  }

  lemma CastProduct(a: int, b: int)
    ensures (a * b) as real == (a as real) * (b as real)
  {
  }

  lemma QuotientBounds(s: real, n: real, lo: real, hi: real)
    requires n > 0.0 && lo * n <= s <= hi * n
    ensures lo <= s / n <= hi
  {
    assert s / n - lo == (s - lo * n) / n;
    assert hi - s / n == (hi * n - s) / n;
  }

  lemma AverageBetween(sum: int, n: nat, lo: int, hi: int)
    requires n > 0 && lo * n <= sum <= hi * n
    ensures lo as real <= Average(sum, n) <= hi as real
  {
    CastProduct(lo, n);
    CastProduct(hi, n);
    QuotientBounds(sum as real, n as real, lo as real, hi as real);
  }

  /** When every log has between `lo` and `hi` hours (a missing value counting as 0), the
      average lies between them too. */
  lemma AverageWithinBounds(hours: seq<Option<int>>, lo: int, hi: int)
    requires |hours| > 0
    requires forall i :: 0 <= i < |hours| ==> lo <= HoursOrZero(hours[i]) <= hi
    ensures lo as real <= Average(SumHours(hours), |hours|) <= hi as real
  {
    SumHoursBounds(hours, lo, hi);
    AverageBetween(SumHours(hours), |hours|, lo, hi);
  }
}

=== FILE: admin_report.dfy ===
/** The administrator's report page for one intern, `/admin/report?user_id=…`: the
    intern's name, their five longest tasks, and a PDF named after the intern whose
    whitespace runs become underscores. */
module AdminReport {
  import opened Common

  const UnknownUser := "Unknown User"
  const NoTasksText := "No tasks found."
  const FileSuffix := "_Report.pdf"
  /** The em dash between a task's title and its hours. */
  const Dash := " \U{2014} "

  /** A fetched `work_logs` row: `task_title, hours_worked`. */
  datatype Task = Task(taskTitle: string, hoursWorked: int)

  /** The page's state: the shown name and tasks. */
  datatype ReportState = ReportState(userName: string, tasks: seq<Task>)

  const InitialState := ReportState("", [])

  /** The page's effect. `userIdParam` is the `user_id` query parameter; `fullName` is the
      name the `users` query returns (`None` when it returns no row or a null name) and
      `logs` the rows of the top-five query (`None` when it returns none). Without a user
      id nothing is fetched. */
  function Load(st: ReportState, userIdParam: Option<string>, fullName: Option<string>,
                logs: Option<seq<Task>>): (st': ReportState)
    ensures !Truthy(userIdParam) ==> st' == st
    ensures Truthy(userIdParam) ==> st'.userName == (if Truthy(fullName) then fullName.value else UnknownUser)
    ensures Truthy(userIdParam) ==> st'.tasks == (if logs.Some? then logs.value else [])
    ensures Truthy(userIdParam) ==> st'.userName != ""
  {
    var userId := OrElse(userIdParam, "");
    if userId == "" then st
    else ReportState(OrElse(fullName, UnknownUser), logs.GetOr([]))
  }

  // ---------------------------------------------------------------------------
  // The file name: the intern's name with whitespace runs turned into underscores
  // ---------------------------------------------------------------------------

  /** Every maximal run of whitespace replaced by one underscore. */
  function Collapse(s: string): string
    decreases |s|
  {
    if |s| == 0 then ""
    else if IsWhitespace(s[0]) then "_" + Collapse(TrimStart(s[1..]))
    else [s[0]] + Collapse(s[1..])
  }

  /** The name of the saved PDF. */
  function FileName(userName: string): (f: string)
    ensures |f| >= |FileSuffix| && f[|f| - |FileSuffix|..] == FileSuffix
  {
    Collapse(userName) + FileSuffix
  }

  /** The characters of a name other than whitespace and underscores. */
  function Visible(s: string): string
  {
    if |s| == 0 then ""
    else if IsWhitespace(s[0]) || s[0] == '_' then Visible(s[1..])
    else [s[0]] + Visible(s[1..])
  }

  lemma {:induction false} CollapseHasNoWhitespace(s: string)
    ensures NoWhitespace(Collapse(s))
    decreases |s|
  {
    if |s| > 0 {
      if IsWhitespace(s[0]) {
        CollapseHasNoWhitespace(TrimStart(s[1..]));
      } else {
        CollapseHasNoWhitespace(s[1..]);
      }
    }
  }

  /** A whitespace-free prefix passes through unchanged. */
  lemma {:induction false} CollapseKeepsWord(w: string, rest: string)
    requires NoWhitespace(w)
    ensures Collapse(w + rest) == w + Collapse(rest)
  {
    if |w| > 0 {
      assert (w + rest)[1..] == w[1..] + rest;
      CollapseKeepsWord(w[1..], rest);
    } else {
      assert w + rest == rest;
    }
  }

  /** A name is left as it is exactly when it has no whitespace. */
  lemma CollapseFixedIff(s: string)
    ensures Collapse(s) == s <==> NoWhitespace(s)
  {
    CollapseHasNoWhitespace(s);
    if NoWhitespace(s) {
      CollapseKeepsWord(s, "");
      assert s + "" == s;
    }
  }

  /** Collapsing twice is collapsing once. */
  lemma CollapseIdempotent(s: string)
    ensures Collapse(Collapse(s)) == Collapse(s)
  {
    CollapseHasNoWhitespace(s);
    CollapseFixedIff(Collapse(s));
  }

  /** The defining step of the replacement: a word, then a non-empty whitespace run, then
      the rest starting with a non-whitespace character or empty, becomes the word, one
      underscore, and the rest collapsed. */
  lemma CollapseRun(w: string, run: string, rest: string)
    requires NoWhitespace(w)
    requires |run| > 0 && forall i :: 0 <= i < |run| ==> IsWhitespace(run[i])
    requires rest == [] || !IsWhitespace(rest[0])
    ensures Collapse(w + (run + rest)) == w + ("_" + Collapse(rest))
  {
    CollapseOfRun(run, rest);
    CollapseKeepsWord(w, run + rest);
  }

  lemma CollapseOfRun(run: string, rest: string)
    requires |run| > 0 && forall i :: 0 <= i < |run| ==> IsWhitespace(run[i])
    requires rest == [] || !IsWhitespace(rest[0])
    ensures Collapse(run + rest) == "_" + Collapse(rest)
  {
    var s := run + rest;
    assert IsWhitespace(s[0]);
    assert s[1..] == run[1..] + rest;
    TrimStartOfRun(run[1..], rest);
  }

  lemma {:induction false} TrimStartOfRun(run: string, rest: string)
    requires forall i :: 0 <= i < |run| ==> IsWhitespace(run[i])
    requires rest == [] || !IsWhitespace(rest[0])
    ensures TrimStart(run + rest) == rest
  {
    if |run| > 0 {
      assert (run + rest)[1..] == run[1..] + rest;
      TrimStartOfRun(run[1..], rest);
    } else {
      assert run + rest == rest;
    }
  }

  lemma {:induction false} VisibleSkipsWhitespace(s: string)
    ensures Visible(TrimStart(s)) == Visible(s)
  {
    if |s| > 0 && IsWhitespace(s[0]) {
      VisibleSkipsWhitespace(s[1..]);
    }
  }

  /** Collapsing loses no visible character and adds none, in order. */
  lemma {:induction false} CollapseKeepsVisible(s: string)
    ensures Visible(Collapse(s)) == Visible(s)
    decreases |s|
  {
    if |s| > 0 {
      if IsWhitespace(s[0]) {
        var r := TrimStart(s[1..]);
        CollapseKeepsVisible(r);
        VisibleSkipsWhitespace(s[1..]);
        assert ("_" + Collapse(r))[1..] == Collapse(r);
      } else {
        CollapseKeepsVisible(s[1..]);
        assert ([s[0]] + Collapse(s[1..]))[1..] == Collapse(s[1..]);
      }
    }
  }

  /** The name part of the file name holds no whitespace, and the file name of a
      whitespace-free name is that name followed by the suffix. */
  lemma FileNameShape(userName: string)
    ensures var f := FileName(userName);
      NoWhitespace(f[..|f| - |FileSuffix|]) && Visible(f[..|f| - |FileSuffix|]) == Visible(userName)
    ensures NoWhitespace(userName) ==> FileName(userName) == userName + FileSuffix
  {
    var f := FileName(userName);
    assert f[..|f| - |FileSuffix|] == Collapse(userName);
    CollapseHasNoWhitespace(userName);
    CollapseKeepsVisible(userName);
    CollapseFixedIff(userName);
  }

  // ---------------------------------------------------------------------------
  // The list of tasks on the page and in the PDF
  // ---------------------------------------------------------------------------

  /** One list item on the page: the title, the dash, the hours. */
  function Item(t: Task): string
  {
    t.taskTitle + Dash + IntToString(t.hoursWorked) + " hrs"
  }

  /** The page's list: one item per task, or the empty-list notice. */
  function ListItems(tasks: seq<Task>): (items: seq<string>)
    ensures |tasks| == 0 ==> items == [NoTasksText]
    ensures |tasks| > 0 ==> |items| == |tasks| && forall i :: 0 <= i < |tasks| ==> items[i] == Item(tasks[i])
  {
    if |tasks| == 0 then [NoTasksText]
    else seq(|tasks|, i requires 0 <= i < |tasks| => Item(tasks[i]))
  }

  /** The PDF's task lines: the line's number from one, a full stop and a space, then the
      same text as the page's list item. */
  function PdfLines(tasks: seq<Task>): (lines: seq<string>)
    ensures |lines| == |tasks|
  {
    seq(|tasks|, i requires 0 <= i < |tasks| => NatToString(i + 1) + ". " + Item(tasks[i]))
  }

  /** The number a PDF line starts with; reading it back is independent of how the lines
      are rendered. */
  function LineNumber(line: string): nat
  {
    ParseNat(LeadingDigits(line))
  }

  /** Each PDF line is the page's list item behind its number, and the number read back
      from line `i` is `i + 1`: the lines are numbered from one in list order. */
  lemma PdfLinesNumbered(tasks: seq<Task>, i: nat)
    requires i < |tasks|
    ensures PdfLines(tasks)[i] == NatToString(i + 1) + ". " + ListItems(tasks)[i]
    ensures LineNumber(PdfLines(tasks)[i]) == i + 1
  {
    var n := NatToString(i + 1);
    var rest := ". " + Item(tasks[i]);
    assert PdfLines(tasks)[i] == n + rest;
    LeadingDigitsOf(n, rest);
    ParseNatToString(i + 1);
  }

  const HeadingPrefix := "Report for "

  /** The page title and the PDF heading. */
  function Heading(userName: string): (h: string)
    ensures StartsWith(h, HeadingPrefix) && h[|HeadingPrefix|..] == userName
  {
    HeadingPrefix + userName
  }

  /** The heading and the saved file name the same intern: the name in the heading and
      the name part of the file name have the same visible characters in the same order. */
  lemma HeadingMatchesFileName(userName: string)
    ensures var h, f := Heading(userName), FileName(userName);
      Visible(h[|HeadingPrefix|..]) == Visible(f[..|f| - |FileSuffix|])
  {
    FileNameShape(userName);
  }

  /** Once a user id is given, the heading always names someone: it is never the bare
      prefix, because the loaded name falls back to "Unknown User". */
  lemma LoadedHeadingNamesSomeone(st: ReportState, userIdParam: Option<string>, fullName: Option<string>,
                                  logs: Option<seq<Task>>)
    requires Truthy(userIdParam)
    ensures Heading(Load(st, userIdParam, fullName, logs).userName) != HeadingPrefix
    ensures !Truthy(fullName) ==> Heading(Load(st, userIdParam, fullName, logs).userName) == HeadingPrefix + UnknownUser
  {
    var h := Heading(Load(st, userIdParam, fullName, logs).userName);
    assert |h| > |HeadingPrefix|;
  }
}

=== FILE: admin_users.dfy ===
/** The administrator's list of interns: every `users` row with role `user`, enriched
    with its number of logs, with a toggle for the active flag and links to each
    user's logs. */
module AdminUsers {
  import opened Common
  import RouteGuard

  const NoUsersText := "No users found."
  const SkeletonRows := 5

  /** A `users` row as fetched. */
  datatype Account = Account(id: string, fullName: string, email: string, active: bool, role: string)

  /** A listed user: the row and its log count. */
  datatype UserRow = UserRow(id: string, fullName: string, email: string, active: bool, role: string, totalLogs: nat)

  /** Each user with a log count added: the count query's answer for that user's id, 0
      when `counts` holds none for it. */
  function Enrich(accounts: seq<Account>, counts: map<string, nat>): (rows: seq<UserRow>)
    ensures |rows| == |accounts|
    ensures forall i :: 0 <= i < |rows| ==>
      && rows[i].id == accounts[i].id && rows[i].fullName == accounts[i].fullName
      && rows[i].email == accounts[i].email && rows[i].active == accounts[i].active
      && rows[i].role == accounts[i].role
      && rows[i].totalLogs == (if accounts[i].id in counts then counts[accounts[i].id] else 0)
  {
    seq(|accounts|, i requires 0 <= i < |accounts| =>
      var a := accounts[i];
      UserRow(a.id, a.fullName, a.email, a.active, a.role, if a.id in counts then counts[a.id] else 0))
  }

  /** The page's state: the listed users and whether the first load is under way. */
  datatype PageState = PageState(users: seq<UserRow>, loading: bool)

  /** The end of `fetchUsers`: on an error the list stays as it was; loading ends either way. */
  function AfterFetch(st: PageState, res: Fetch<seq<Account>>, counts: map<string, nat>): (st': PageState)
    ensures !st'.loading
    ensures res.FetchFailed? ==> st'.users == st.users
    ensures res.Loaded? ==> st'.users == Enrich(res.data, counts)
  {
    match res
    case FetchFailed(_) => PageState(st.users, false)
    case Loaded(accounts) => PageState(Enrich(accounts, counts), false)
  }

  /** The list after a status toggle: the user with that id gets the negated flag, every
      other user is kept as it was. */
  function ToggleStatus(users: seq<UserRow>, userId: string, current: bool): (users': seq<UserRow>)
    ensures |users'| == |users|
    ensures forall i :: 0 <= i < |users| ==>
      if users[i].id == userId then users'[i] == users[i].(active := !current) else users'[i] == users[i]
  {
    seq(|users|, i requires 0 <= i < |users| =>
      if users[i].id == userId then users[i].(active := !current) else users[i])
  }

  /** Toggling a user with its shown flag and then toggling again with the new flag gives
      back the original list. */
  lemma ToggleTwiceRestores(users: seq<UserRow>, userId: string, current: bool)
    requires forall i :: 0 <= i < |users| && users[i].id == userId ==> users[i].active == current
    ensures ToggleStatus(ToggleStatus(users, userId, current), userId, !current) == users
  {
    var once := ToggleStatus(users, userId, current);
    var twice := ToggleStatus(once, userId, !current);
    assert forall i :: 0 <= i < |users| ==> twice[i] == users[i];
  }

  /** A row changes exactly when it has the toggled id and its flag was `current`. */
  lemma ToggleChangesOnlyThatUser(users: seq<UserRow>, userId: string, current: bool, i: nat)
    requires i < |users|
    ensures ToggleStatus(users, userId, current)[i] != users[i] <==>
      users[i].id == userId && users[i].active == current
  {
  }

  /** Where both the row click and the View button go. */
  function LogsPageOf(id: string): (href: string)
    ensures StartsWith(href, RouteGuard.AdminScope)
  {
    "/admin/users/" + id + "/logs"
  }

  /** The navigation targets of the list are admin pages: the guard lets an admin
      session through and turns a `user` session away. */
  lemma LogsPageIsAdminOnly(userId: string, id: string)
    requires userId != ""
    ensures RouteGuard.Guard(RouteGuard.Request(Some(userId), Some(RouteGuard.AdminRole), LogsPageOf(id))) == RouteGuard.Next
    ensures RouteGuard.Guard(RouteGuard.Request(Some(userId), Some(RouteGuard.UserRole), LogsPageOf(id)))
         == RouteGuard.Redirect(RouteGuard.Unauthorized)
  {
    RouteGuard.OwnersPassTheirScope(RouteGuard.Request(Some(userId), Some(RouteGuard.AdminRole), LogsPageOf(id)));
  }

  /** One table line: its number, the user, the status label and the link. */
  datatype Line = Line(number: nat, user: UserRow, status: string, href: string)

  datatype Body = Skeleton(rows: nat) | NoUsers(text: string) | Table(lines: seq<Line>)

  function Render(st: PageState): (b: Body)
    ensures st.loading <==> b == Skeleton(SkeletonRows)
    ensures !st.loading && st.users == [] <==> b == NoUsers(NoUsersText)
    ensures b.Table? ==> |b.lines| == |st.users| > 0
    ensures b.Table? ==> forall i :: 0 <= i < |b.lines| ==>
      b.lines[i].number == i + 1 && b.lines[i].user == st.users[i] && b.lines[i].href == LogsPageOf(st.users[i].id)
      && (b.lines[i].status == "Active" <==> st.users[i].active)
  {
    if st.loading then Skeleton(SkeletonRows)
    else if |st.users| == 0 then NoUsers(NoUsersText)
    else Table(seq(|st.users|, i requires 0 <= i < |st.users| =>
      Line(i + 1, st.users[i], if st.users[i].active then "Active" else "Inactive", LogsPageOf(st.users[i].id))))
  }
}

=== FILE: auth_complete.dfy ===
/** The post-sign-in landing page: once the client-side session has loaded it replaces
    the location with the signed-in user's role home, with `/` for a signed-out
    visitor, and with `/unauthorized` for any other role. */
module AuthComplete {
  import opened Common
  import RouteGuard

  /** The client-side session: loaded yet, signed in, and the user's public role. */
  datatype ClientSession = ClientSession(isLoaded: bool, isSignedIn: bool, role: Option<string>)

  /** The effect of one run of the page's effect: nothing yet, or `router.replace(path)`. */
  datatype Navigation = Stay | ReplaceWith(path: string)

  function Landing(s: ClientSession): (n: Navigation)
    ensures n == Stay <==> !s.isLoaded
    ensures s.isLoaded && !s.isSignedIn ==> n == ReplaceWith("/")
    ensures s.isLoaded && s.isSignedIn ==>
      n.ReplaceWith? && n.path in {RouteGuard.AdminHome, RouteGuard.UserHome, RouteGuard.Unauthorized}
    ensures s.isLoaded && s.isSignedIn ==>
      (n == ReplaceWith(RouteGuard.AdminHome) <==> s.role == Some(RouteGuard.AdminRole))
    ensures s.isLoaded && s.isSignedIn ==>
      (n == ReplaceWith(RouteGuard.UserHome) <==> s.role == Some(RouteGuard.UserRole))
  {
    if !s.isLoaded then Stay
    else if !s.isSignedIn then ReplaceWith("/")
    else if s.role == Some(RouteGuard.AdminRole) then ReplaceWith(RouteGuard.AdminHome)
    else if s.role == Some(RouteGuard.UserRole) then ReplaceWith(RouteGuard.UserHome)
    else ReplaceWith(RouteGuard.Unauthorized)
  }

  /** Whatever the role, the page it lands a signed-in user on is one the route guard
      lets that same session through to. */
  lemma LandingPassesGuard(s: ClientSession, userId: string)
    requires s.isLoaded && s.isSignedIn && userId != ""
    ensures Landing(s).ReplaceWith?
    ensures RouteGuard.Guard(RouteGuard.Request(Some(userId), s.role, Landing(s).path)) == RouteGuard.Next
  {
    var req := RouteGuard.Request(Some(userId), s.role, Landing(s).path);
    if Landing(s).path == RouteGuard.Unauthorized {
      RouteGuard.PublicAlwaysPasses(req);
    } else {
      RouteGuard.OwnersPassTheirScope(req);
    }
  }

  /** For `admin` and `user` the landing page is the one the guard redirects `/` to. */
  lemma LandingMatchesRootRedirect(s: ClientSession, userId: string)
    requires s.isLoaded && s.isSignedIn && userId != ""
    requires s.role == Some(RouteGuard.AdminRole) || s.role == Some(RouteGuard.UserRole)
    ensures RouteGuard.Guard(RouteGuard.Request(Some(userId), s.role, RouteGuard.Root))
         == RouteGuard.Redirect(Landing(s).path)
  {
  }
}

=== FILE: clerk_webhook.dfy ===
/** `POST /api/webhooks/clerk`: the identity provider's user events, checked and turned
    into an upsert of the `users` row keyed on the user's e-mail address. */
module ClerkWebhook {
  import opened Common
  import RouteGuard

  const InvalidSignature := "Invalid signature"
  const UnsupportedEvent := "Unsupported event type"
  const InvalidPayload := "Invalid payload"
  const UserCreated := "user.created"
  const UserUpdated := "user.updated"

  /** The event's `data`: the fields the route reads, each possibly missing.
      `emailAddresses` is the list of `email_address` values of `email_addresses`. */
  datatype Payload = Payload(id: Option<string>, emailAddresses: Option<seq<Option<string>>>,
                             firstName: Option<string>, lastName: Option<string>)

  datatype Event = Event(eventType: string, data: Payload)

  /** The answer of the user lookup: it threw, or it returned the user's public metadata
      `role`, possibly missing. */
  datatype RoleLookup = LookupThrew | Metadata(role: Option<string>)

  /** A row of the `users` table as the route writes it. */
  datatype UserRecord = UserRecord(id: string, fullName: string, email: string, role: string, active: bool)

  datatype Body = ErrorBody(error: string) | SuccessBody

  datatype Response = Response(status: nat, body: Body)

  /** The route's answer, the `users` table keyed on e-mail afterwards, and whether it
      asked the identity provider to record the default role. */
  datatype Outcome = Outcome(response: Response, table: map<string, UserRecord>, writesDefaultRole: bool)

  /** The address of the payload's first e-mail entry, when there is one and it is not
      empty. */
  function FirstEmail(p: Payload): (e: Option<string>)
    ensures e.Some? <==> p.emailAddresses.Some? && |p.emailAddresses.value| > 0 && Truthy(p.emailAddresses.value[0])
    ensures e.Some? ==> e.value != "" && Some(e.value) == p.emailAddresses.value[0]
  {
    if p.emailAddresses.Some? && |p.emailAddresses.value| > 0 && Truthy(p.emailAddresses.value[0])
    then p.emailAddresses.value[0] else None
  }

  /** The stored name: the first name and the last name, each empty when missing, joined
      by one space, with whitespace cut off both ends. */
  function FullName(firstName: Option<string>, lastName: Option<string>): string
  {
    Trim(OrElse(firstName, "") + " " + OrElse(lastName, ""))
  }

  /** The stored role: the metadata role when the lookup answered with a truthy one,
      `"user"` otherwise, including when the lookup threw. */
  function StoredRole(lookup: RoleLookup): (role: string)
    ensures lookup.Metadata? && Truthy(lookup.role) ==> role == lookup.role.value
    ensures !(lookup.Metadata? && Truthy(lookup.role)) ==> role == RouteGuard.UserRole
    ensures role != ""
  {
    if lookup.Metadata? && Truthy(lookup.role) then lookup.role.value else RouteGuard.UserRole
  }

  /** The metadata update happens when the lookup answered without a truthy role. */
  predicate WritesDefaultRole(lookup: RoleLookup)
  {
    lookup.Metadata? && !Truthy(lookup.role)
  }

  /** `POST`. `verified` is the verified event, `None` when the signature check throws;
      `upsertError` the message of a failed upsert. */
  function Post(verified: Option<Event>, lookup: RoleLookup, table: map<string, UserRecord>,
                upsertError: Option<string>): (o: Outcome)
    ensures verified.None? ==> o == Outcome(Response(400, ErrorBody(InvalidSignature)), table, false)
    ensures verified.Some? && verified.value.eventType != UserCreated && verified.value.eventType != UserUpdated ==>
      o == Outcome(Response(400, ErrorBody(UnsupportedEvent)), table, false)
    ensures o.response.status == 200 <==>
      && verified.Some? && (verified.value.eventType == UserCreated || verified.value.eventType == UserUpdated)
      && Truthy(verified.value.data.id) && FirstEmail(verified.value.data).Some? && upsertError.None?
    ensures o.response.status != 200 && o.response.status != 500 ==> o.table == table && !o.writesDefaultRole
    ensures o.response.status == 500 ==> upsertError.Some? && o.response.body == ErrorBody(upsertError.value)
    ensures o.response.status == 200 ==> o.response.body == SuccessBody
    ensures && verified.Some? && (verified.value.eventType == UserCreated || verified.value.eventType == UserUpdated)
            && Truthy(verified.value.data.id) && FirstEmail(verified.value.data).Some? && upsertError.Some?
            ==> o.response == Response(500, ErrorBody(upsertError.value)) && o.table == table
    ensures o.response.status == 200 || o.response.status == 500 ==> o.writesDefaultRole == WritesDefaultRole(lookup)
  {
    if verified.None? then Outcome(Response(400, ErrorBody(InvalidSignature)), table, false)
    else
      var event := verified.value;
      if event.eventType != UserCreated && event.eventType != UserUpdated then
        Outcome(Response(400, ErrorBody(UnsupportedEvent)), table, false)
      else
        var email := FirstEmail(event.data);
        if !Truthy(event.data.id) || email.None? then Outcome(Response(400, ErrorBody(InvalidPayload)), table, false)
        else
          var row := UserRecord(event.data.id.value, FullName(event.data.firstName, event.data.lastName),
                                email.value, StoredRole(lookup), true);
          var written := WritesDefaultRole(lookup);
          if upsertError.Some? then Outcome(Response(500, ErrorBody(upsertError.value)), table, written)
          else Outcome(Response(200, SuccessBody), table[email.value := row], written)
  }

  /** An accepted event of either type upserts one row, keyed on the first e-mail address:
      the payload's id, the trimmed full name, the stored role, and `active` set; every
      other address keeps its row. */
  lemma AcceptedEventUpserts(e: Event, lookup: RoleLookup, table: map<string, UserRecord>)
    requires e.eventType == UserCreated || e.eventType == UserUpdated
    requires Truthy(e.data.id) && FirstEmail(e.data).Some?
    ensures var o := Post(Some(e), lookup, table, None);
      var email := FirstEmail(e.data).value;
      && o.response == Response(200, SuccessBody)
      && o.table.Keys == table.Keys + {email}
      && o.table[email] == UserRecord(e.data.id.value, FullName(e.data.firstName, e.data.lastName),
                                      email, StoredRole(lookup), true)
      && o.table[email].active
      && (forall k :: k in table && k != email ==> o.table[k] == table[k])
  {
  }

  /** A payload without a truthy id or first address is refused without any write. */
  lemma MissingFieldsRejected(e: Event, lookup: RoleLookup, table: map<string, UserRecord>, upsertError: Option<string>)
    requires e.eventType == UserCreated || e.eventType == UserUpdated
    requires !Truthy(e.data.id) || FirstEmail(e.data).None?
    ensures Post(Some(e), lookup, table, upsertError) == Outcome(Response(400, ErrorBody(InvalidPayload)), table, false)
  {
  }

  /** Delivering the same accepted event twice leaves the table as delivering it once. */
  lemma RedeliveryIsHarmless(e: Event, lookup: RoleLookup, table: map<string, UserRecord>)
    ensures var once := Post(Some(e), lookup, table, None).table;
      Post(Some(e), lookup, once, None).table == once
  {
  }

  // ---------------------------------------------------------------------------
  // Trimming the full name
  // ---------------------------------------------------------------------------

  /** `r` is the slice of `s` from `a`, and everything of `s` before and after it is
      whitespace. */
  predicate CutAt(s: string, a: nat, r: string)
  {
    && a + |r| <= |s| && s[a..a + |r|] == r
    && (forall i :: 0 <= i < a ==> IsWhitespace(s[i]))
    && (forall i :: a + |r| <= i < |s| ==> IsWhitespace(s[i]))
  }

  /** The trimmed string is a slice of the original with only whitespace cut off both
      ends, and neither of its ends is whitespace. */
  lemma TrimShape(s: string)
    ensures var r := Trim(s);
      (r == [] || (!IsWhitespace(r[0]) && !IsWhitespace(r[|r| - 1])))
      && exists a :: CutAt(s, a, r)
  {
    var t := TrimStart(s);
    var r := TrimEnd(t);
    var a := |s| - |t|;
    assert s[a..a + |r|] == t[..|r|];
    forall i | a + |r| <= i < |s|
      ensures IsWhitespace(s[i])
    {
      assert s[i] == t[i - a];
    }
    assert CutAt(s, a, r);
  }

  /** A string is its own trim exactly when it is empty or neither end is whitespace. */
  lemma TrimFixedIff(s: string)
    ensures Trim(s) == s <==> s == [] || (!IsWhitespace(s[0]) && !IsWhitespace(s[|s| - 1]))
  {
    TrimShape(s);
  }

  lemma TrimIdempotent(s: string)
    ensures Trim(Trim(s)) == Trim(s)
  {
    TrimShape(s);
    TrimFixedIff(Trim(s));
  }

  /** The full name never starts or ends with whitespace. */
  lemma FullNameTrimmed(firstName: Option<string>, lastName: Option<string>)
    ensures var n := FullName(firstName, lastName);
      n == [] || (!IsWhitespace(n[0]) && !IsWhitespace(n[|n| - 1]))
  {
    TrimShape(OrElse(firstName, "") + " " + OrElse(lastName, ""));
  }

  /** For names without whitespace: both parts give "first last", one part gives that part
      alone, and no part gives the empty name. */
  lemma FullNameOfWords(firstName: Option<string>, lastName: Option<string>)
    requires NoWhitespace(OrElse(firstName, "")) && NoWhitespace(OrElse(lastName, ""))
    ensures var f, l := OrElse(firstName, ""), OrElse(lastName, "");
      FullName(firstName, lastName) == if f == "" then l else if l == "" then f else f + " " + l
  {
    var f, l := OrElse(firstName, ""), OrElse(lastName, "");
    var s := f + " " + l;
    TrimShape(s);
    if f != "" {
      assert s[0] == f[0];
    }
    if l != "" {
      assert s[|s| - 1] == l[|l| - 1];
    }
    if f != "" && l == "" {
      assert s == f + " ";
      assert TrimStart(s) == s;
      assert TrimEnd(s) == TrimEnd(f);
    }
    if f == "" && l != "" {
      assert s == " " + l;
      assert TrimStart(s) == TrimStart(l);
    }
    if f == "" && l == "" {
      assert s == " ";
    }
  }
}

=== FILE: common.dfy ===
/** Vocabulary shared by every page and route of the application: optional values,
    JavaScript truthiness of optional strings, the whitespace class of JavaScript
    regular expressions, decimal rendering of numbers, and the "missing hours count
    as zero" sum used by both dashboards. */
module Common {

  /** A value that may be absent (`null` or `undefined` in the source). */
  datatype Option<+T> = None | Some(value: T) {
    /** The value, or `default` when absent. */
    function GetOr(default: T): T
    {
      if Some? then value else default
    }
  }

  /** The result of one data-store query: the rows, or the store's error message. */
  datatype Fetch<+T> = Loaded(data: T) | FetchFailed(message: string)

  /** JavaScript truthiness of an optional string: present and not empty. */
  predicate Truthy(o: Option<string>)
  {
    o.Some? && o.value != ""
  }

  /** The string when it is present and not empty, the fallback otherwise. */
  function OrElse(o: Option<string>, fallback: string): string
  {
    if Truthy(o) then o.value else fallback
  }

  /** The first element of an embedded relation list, or `None` when the list is absent
      or empty; how every page reduces a log's `feedback(...)` list to one value. */
  function FirstOrNone<T>(list: Option<seq<T>>): (r: Option<T>)
    ensures r.Some? <==> list.Some? && |list.value| > 0
    ensures r.Some? ==> r.value == list.value[0]
  {
    if list.Some? && |list.value| > 0 then Some(list.value[0]) else None
  }

  /** `s.startsWith(prefix)`. */
  predicate StartsWith(s: string, prefix: string)
  {
    prefix <= s
  }

  /** The characters matched by `\s` in a JavaScript regular expression, which are
      also the characters `String.prototype.trim` removes. */
  predicate IsWhitespace(c: char)
  {
    || c == ' ' || c == '\t' || c == '\n' || c == '\U{000B}' || c == '\U{000C}' || c == '\r'
    || c == '\U{00A0}' || c == '\U{1680}' || ('\U{2000}' <= c <= '\U{200A}')
    || c == '\U{2028}' || c == '\U{2029}' || c == '\U{202F}' || c == '\U{205F}'
    || c == '\U{3000}' || c == '\U{FEFF}'
  }

  predicate NoWhitespace(s: string)
  {
    forall i :: 0 <= i < |s| ==> !IsWhitespace(s[i])
  }

  /** `s` without its leading whitespace: `trimStart`. */
  function TrimStart(s: string): (r: string)
    ensures |r| <= |s| && r == s[|s| - |r|..]
    ensures r == [] || !IsWhitespace(r[0])
    ensures forall i :: 0 <= i < |s| - |r| ==> IsWhitespace(s[i])
  {
    if |s| > 0 && IsWhitespace(s[0]) then TrimStart(s[1..]) else s
  }

  /** `s` without its trailing whitespace: `trimEnd`. */
  function TrimEnd(s: string): (r: string)
    ensures |r| <= |s| && r == s[..|r|]
    ensures r == [] || !IsWhitespace(r[|r| - 1])
    ensures forall i :: |r| <= i < |s| ==> IsWhitespace(s[i])
  {
    if |s| > 0 && IsWhitespace(s[|s| - 1]) then TrimEnd(s[..|s| - 1]) else s
  }

  /** Whitespace cut off both ends. */
  function Trim(s: string): string
  {
    TrimEnd(TrimStart(s))
  }

  // ---------------------------------------------------------------------------
  // Decimal rendering of numbers inside template strings (`${n}`).
  // ---------------------------------------------------------------------------

  predicate IsDigit(c: char)
  {
    '0' <= c <= '9'
  }

  function DigitChar(d: nat): (c: char)
    requires d < 10
    ensures IsDigit(c) && c as int - '0' as int == d
  {
    ('0' as int + d) as char
  }

  /** The decimal digits of `n`, most significant first, without leading zeros. */
  function NatToString(n: nat): (s: string)
    ensures 1 <= |s|
    ensures forall i :: 0 <= i < |s| ==> IsDigit(s[i])
    ensures n < 10 <==> |s| == 1
  {
    if n < 10 then [DigitChar(n)] else NatToString(n / 10) + [DigitChar(n % 10)]
  }

  /** How JavaScript renders an integral number: an optional minus sign, then digits. */
  function IntToString(n: int): string
  {
    if n < 0 then "-" + NatToString(-n) else NatToString(n)
  }

  /** Reads back a string of decimal digits; the reference that `NatToString` is checked against. */
  function ParseNat(s: string): nat
    requires forall i :: 0 <= i < |s| ==> IsDigit(s[i])
  {
    if |s| == 0 then 0 else 10 * ParseNat(s[..|s| - 1]) + DigitValue(s[|s| - 1])
  }

  function DigitValue(c: char): (d: nat)
    requires IsDigit(c)
    ensures d < 10
  {
    c as int - '0' as int
  }

  /** Rendering a number and reading it back gives the number: the rendering is injective. */
  lemma {:induction false} ParseNatToString(n: nat)
    ensures ParseNat(NatToString(n)) == n
  {
    var s := NatToString(n);
    if n >= 10 {
      ParseNatToString(n / 10);
      assert s[..|s| - 1] == NatToString(n / 10);
    }
  }

  /** The longest prefix of decimal digits. */
  function LeadingDigits(s: string): (d: string)
    ensures |d| <= |s| && d == s[..|d|]
    ensures forall i :: 0 <= i < |d| ==> IsDigit(d[i])
  {
    if |s| > 0 && IsDigit(s[0]) then [s[0]] + LeadingDigits(s[1..]) else ""
  }

  lemma {:induction false} LeadingDigitsOf(d: string, rest: string)
    requires forall i :: 0 <= i < |d| ==> IsDigit(d[i])
    requires rest == [] || !IsDigit(rest[0])
    ensures LeadingDigits(d + rest) == d
  {
    if |d| > 0 {
      assert (d + rest)[1..] == d[1..] + rest;
      LeadingDigitsOf(d[1..], rest);
    } else {
      assert d + rest == rest;
    }
  }

  lemma NatToStringInjective(m: nat, n: nat)
    requires NatToString(m) == NatToString(n)
    ensures m == n
  {
    ParseNatToString(m);
    ParseNatToString(n);
  }

  // ---------------------------------------------------------------------------
  // Summing a column of hours, a missing value counting as zero
  // ---------------------------------------------------------------------------

  /** A missing or zero number of hours counts as zero. */
  function HoursOrZero(h: Option<int>): int
  {
    if h.Some? then h.value else 0
  }

  function SumHours(hs: seq<Option<int>>): int
  {
    if |hs| == 0 then 0 else HoursOrZero(hs[0]) + SumHours(hs[1..])
  }

  /** When every row contributes between `lo` and `hi`, the sum lies between `lo` and `hi`
      times the row count. */
  lemma {:induction false} SumHoursBounds(hs: seq<Option<int>>, lo: int, hi: int)
    requires forall i :: 0 <= i < |hs| ==> lo <= HoursOrZero(hs[i]) <= hi
    ensures lo * |hs| <= SumHours(hs) <= hi * |hs|
  {
    if |hs| > 0 {
      assert forall i :: 0 <= i < |hs[1..]| ==> hs[1..][i] == hs[i + 1];
      SumHoursBounds(hs[1..], lo, hi);
    }
  }

  /** The left-to-right `reduce`: one more row adds its hours, or nothing when they are missing. */
  lemma {:induction false} SumHoursAppend(hs: seq<Option<int>>, h: Option<int>)
    ensures SumHours(hs + [h]) == SumHours(hs) + HoursOrZero(h)
  {
    if |hs| == 0 {
      assert hs + [h] == [h];
    } else {
      assert (hs + [h])[1..] == hs[1..] + [h];
      SumHoursAppend(hs[1..], h);
    }
  }
}

=== FILE: feedback_form.dfy ===
/** The administrator's feedback form for one log, `/admin/users/feedback?log_id=…`.
    It prefills the log's owner, title and description and any existing feedback text;
    on submit it updates the log's feedback row when the lookup finds one and inserts
    one otherwise, then returns to the owner's list of logs. */
module FeedbackForm {
  import opened Common

  /** The store's code for a single-row request that matched no row or several rows. */
  const NotFoundCode := "PGRST116"

  /** A row of the `feedback` table. */
  datatype FeedbackRow = FeedbackRow(id: string, logId: string, text: string)

  datatype StoreError = StoreError(code: string, message: string)

  /** The answer to a `.single()` request. */
  datatype Single = Row(row: FeedbackRow) | Err(error: StoreError)

  /** How many rows belong to log `l`. */
  function MatchCount(t: seq<FeedbackRow>, l: string): nat
  {
    if |t| == 0 then 0 else (if t[0].logId == l then 1 else 0) + MatchCount(t[1..], l)
  }

  /** The position of the first row of log `l`, or `|t|` when there is none. */
  function Find(t: seq<FeedbackRow>, l: string): (k: nat)
    ensures k <= |t|
    ensures k < |t| ==> t[k].logId == l
    ensures forall j :: 0 <= j < k ==> t[j].logId != l
    ensures k == |t| <==> MatchCount(t, l) == 0
  {
    if |t| == 0 then 0
    else if t[0].logId == l then 0
    else 1 + Find(t[1..], l)
  }

  /** The single-row lookup of the feedback row of log `l`: the row when exactly one
      matches, the not-found code otherwise; `fault` is a failure of the request itself. */
  function SingleByLog(t: seq<FeedbackRow>, l: string, fault: Option<StoreError>): Single
  {
    if fault.Some? then Err(fault.value)
    else if MatchCount(t, l) == 1 then Row(t[Find(t, l)])
    else Err(StoreError(NotFoundCode, "JSON object requested, multiple (or no) rows returned"))
  }

  /** The table holds at most one feedback row per log, and row ids are unique. */
  predicate WellFormed(t: seq<FeedbackRow>)
  {
    && (forall i, j :: 0 <= i < j < |t| ==> t[i].logId != t[j].logId)
    && (forall i, j :: 0 <= i < j < |t| ==> t[i].id != t[j].id)
  }

  predicate FreshId(t: seq<FeedbackRow>, id: string)
  {
    forall i :: 0 <= i < |t| ==> t[i].id != id
  }

  /** The update of the feedback text of the row with the given id. */
  function UpdateText(t: seq<FeedbackRow>, id: string, text: string): seq<FeedbackRow>
  {
    seq(|t|, i requires 0 <= i < |t| => if t[i].id == id then t[i].(text := text) else t[i])
  }

  /** The feedback table after the submit, and where the page navigates. */
  datatype Outcome = Outcome(table: seq<FeedbackRow>, navigateTo: Option<string>)

  function OwnerLogsPage(owner: string): string
  {
    "/admin/users/" + owner + "/logs"
  }

  /** Whether the lookup lets the submit go on: no error, or the not-found code. */
  predicate LookupProceeds(s: Single)
  {
    s.Row? || s.error.code == NotFoundCode
  }

  /** `handleSubmit`. `lookupFault` is a failure of the existence check, `newId` the id the
      store gives an inserted row, `writeFails` whether the write is rejected, and `owner`
      the `user_id` the final query returns for the log, if any. */
  function HandleSubmit(t: seq<FeedbackRow>, logId: string, text: string, lookupFault: Option<StoreError>,
                        newId: string, writeFails: bool, owner: Option<string>): (r: Outcome)
    requires logId != ""
    ensures !LookupProceeds(SingleByLog(t, logId, lookupFault)) || writeFails ==> r == Outcome(t, None)
    ensures LookupProceeds(SingleByLog(t, logId, lookupFault)) && !writeFails ==>
      r.navigateTo == (if Truthy(owner) then Some(OwnerLogsPage(owner.value)) else None)
    ensures SingleByLog(t, logId, lookupFault).Row? && !writeFails ==>
      var found := SingleByLog(t, logId, lookupFault).row;
      |r.table| == |t| &&
      forall i :: 0 <= i < |t| ==>
        && r.table[i].id == t[i].id && r.table[i].logId == t[i].logId
        && (t[i].id != found.id ==> r.table[i] == t[i])
        && (t[i].id == found.id ==> r.table[i].text == text)
    ensures SingleByLog(t, logId, lookupFault).Err? && LookupProceeds(SingleByLog(t, logId, lookupFault)) && !writeFails ==>
      r.table == t + [FeedbackRow(newId, logId, text)]
  {
    var found := SingleByLog(t, logId, lookupFault);
    if !LookupProceeds(found) || writeFails then Outcome(t, None)
    else
      var t' := if found.Row? then UpdateText(t, found.row.id, text) else t + [FeedbackRow(newId, logId, text)];
      Outcome(t', if Truthy(owner) then Some(OwnerLogsPage(owner.value)) else None)
  }

  // ---------------------------------------------------------------------------
  // Facts about the lookup
  // ---------------------------------------------------------------------------

  lemma {:induction false} MatchCountAtMostOne(t: seq<FeedbackRow>, l: string)
    requires WellFormed(t)
    ensures MatchCount(t, l) <= 1
  {
    if |t| > 0 {
      MatchCountAtMostOne(t[1..], l);
      if t[0].logId == l {
        assert forall j :: 0 <= j < |t[1..]| ==> t[1..][j].logId != l;
        assert Find(t[1..], l) == |t[1..]|;
      }
    }
  }

  /** The counts of matching rows depend only on the rows' log ids. */
  lemma {:induction false} SameLogsSameLookup(t: seq<FeedbackRow>, t': seq<FeedbackRow>, l: string)
    requires |t| == |t'| && forall i :: 0 <= i < |t| ==> t[i].logId == t'[i].logId
    ensures MatchCount(t, l) == MatchCount(t', l) && Find(t, l) == Find(t', l)
  {
    if |t| > 0 {
      SameLogsSameLookup(t[1..], t'[1..], l);
    }
  }

  lemma {:induction false} AppendLookup(t: seq<FeedbackRow>, r: FeedbackRow, l: string)
    ensures MatchCount(t + [r], l) == MatchCount(t, l) + (if r.logId == l then 1 else 0)
  {
    if |t| == 0 {
      assert t + [r] == [r];
    } else {
      assert (t + [r])[1..] == t[1..] + [r];
      AppendLookup(t[1..], r, l);
    }
  }

  // ---------------------------------------------------------------------------
  // What the submit guarantees
  // ---------------------------------------------------------------------------

  /** A failure of the request itself never carries the not-found code, which the store
      reserves for a wrong number of matching rows. */
  predicate GenuineFault(fault: Option<StoreError>)
  {
    fault.None? || fault.value.code != NotFoundCode
  }

  predicate Succeeds(t: seq<FeedbackRow>, logId: string, lookupFault: Option<StoreError>, writeFails: bool)
  {
    LookupProceeds(SingleByLog(t, logId, lookupFault)) && !writeFails
  }

  /** Submitting keeps the table well formed: the form never creates a second feedback
      row for a log. */
  lemma SubmitKeepsOnePerLog(t: seq<FeedbackRow>, logId: string, text: string, lookupFault: Option<StoreError>,
                             newId: string, writeFails: bool, owner: Option<string>)
    requires logId != "" && WellFormed(t) && FreshId(t, newId) && GenuineFault(lookupFault)
    ensures WellFormed(HandleSubmit(t, logId, text, lookupFault, newId, writeFails, owner).table)
  {
    var found := SingleByLog(t, logId, lookupFault);
    if Succeeds(t, logId, lookupFault, writeFails) && found.Err? {
      MatchCountAtMostOne(t, logId);
      var k := Find(t, logId);
      assert k == |t|;
    }
  }

  /** After a successful submit on a well-formed table, the log has exactly one feedback
      row and it carries the submitted text; rows of other logs are unchanged. */
  lemma SubmitStoresText(t: seq<FeedbackRow>, logId: string, text: string, lookupFault: Option<StoreError>,
                         newId: string, owner: Option<string>)
    requires logId != "" && WellFormed(t) && FreshId(t, newId) && GenuineFault(lookupFault)
    requires Succeeds(t, logId, lookupFault, false)
    ensures var t' := HandleSubmit(t, logId, text, lookupFault, newId, false, owner).table;
      && MatchCount(t', logId) == 1
      && t'[Find(t', logId)].text == text
      && forall i :: 0 <= i < |t| && t[i].logId != logId ==> t'[i] == t[i]
  {
    var t' := HandleSubmit(t, logId, text, lookupFault, newId, false, owner).table;
    var found := SingleByLog(t, logId, lookupFault);
    MatchCountAtMostOne(t, logId);
    if found.Row? {
      SameLogsSameLookup(t, t', logId);
      var k := Find(t, logId);
      assert t[k] == found.row;
      forall i | 0 <= i < |t| && t[i].logId != logId
        ensures t'[i] == t[i]
      {
        assert i != k;
      }
    } else {
      assert Find(t, logId) == |t|;
      AppendLookup(t, FeedbackRow(newId, logId, text), logId);
      assert t' == t + [FeedbackRow(newId, logId, text)];
      assert Find(t', logId) == |t| by {
        assert forall j :: 0 <= j < |t| ==> t'[j].logId != logId;
      }
    }
  }

  /** Two successful submits in a row: the stored text is the second one. */
  lemma LastTextWins(t: seq<FeedbackRow>, logId: string, first: string, second: string,
                     id1: string, id2: string, owner: Option<string>)
    requires logId != "" && WellFormed(t) && FreshId(t, id1) && FreshId(t, id2) && id1 != id2
    ensures var t1 := HandleSubmit(t, logId, first, None, id1, false, owner).table;
      var t2 := HandleSubmit(t1, logId, second, None, id2, false, owner).table;
      MatchCount(t2, logId) == 1 && t2[Find(t2, logId)].text == second
  {
    var t1 := HandleSubmit(t, logId, first, None, id1, false, owner).table;
    SubmitKeepsOnePerLog(t, logId, first, None, id1, false, owner);
    SubmitStoresText(t, logId, first, None, id1, owner);
    assert FreshId(t1, id2) by {
      if SingleByLog(t, logId, None).Row? {
        assert |t1| == |t| && forall i :: 0 <= i < |t| ==> t1[i].id == t[i].id;
      } else {
        assert t1 == t + [FeedbackRow(id1, logId, first)];
      }
    }
    SubmitStoresText(t1, logId, second, None, id2, owner);
  }

  // ---------------------------------------------------------------------------
  // Prefilling the form
  // ---------------------------------------------------------------------------

  /** The four text boxes of the form. */
  datatype Fields = Fields(fullName: string, taskTitle: string, description: string, feedbackText: string)

  /** The fetched log: title, description and owner, each possibly missing. */
  datatype LogInfo = LogInfo(taskTitle: Option<string>, description: Option<string>, userId: Option<string>)

  /** `fetchData`: without a log id nothing happens; a failed log or owner query stops the
      prefill; otherwise the log's fields are shown and an existing feedback's text is put
      into the feedback box. A lookup error only gets logged. */
  function Prefill(f: Fields, logId: Option<string>, log: Fetch<LogInfo>, ownerName: Fetch<Option<string>>,
                   existing: Single): (f': Fields)
    ensures !Truthy(logId) || log.FetchFailed? || ownerName.FetchFailed? ==> f' == f
    ensures Truthy(logId) && log.Loaded? && ownerName.Loaded? ==>
      && f'.fullName == OrElse(ownerName.data, "")
      && f'.taskTitle == OrElse(log.data.taskTitle, "")
      && f'.description == OrElse(log.data.description, "")
      && f'.feedbackText == (if existing.Row? then existing.row.text else f.feedbackText)
  {
    if !Truthy(logId) then f
    else match (log, ownerName)
      case (Loaded(info), Loaded(name)) =>
        Fields(OrElse(name, ""), OrElse(info.taskTitle, ""), OrElse(info.description, ""),
               if existing.Row? then existing.row.text else f.feedbackText)
      case _ => f
  }

  /** Reopening the form after a successful submit shows the text just submitted. */
  lemma SubmitThenPrefill(t: seq<FeedbackRow>, logId: string, text: string, newId: string,
                          owner: Option<string>, f: Fields, info: LogInfo, name: Option<string>)
    requires logId != "" && WellFormed(t) && FreshId(t, newId)
    ensures var t' := HandleSubmit(t, logId, text, None, newId, false, owner).table;
      Prefill(f, Some(logId), Loaded(info), Loaded(name), SingleByLog(t', logId, None)).feedbackText == text
  {
    SubmitStoresText(t, logId, text, None, newId, owner);
  }
}

=== FILE: log_form.dfy ===
/** The work-log form of an intern: its schema (a date within the last seven days,
    a title, a description and at least one hour), its default values, the calendar's
    disabled days, the lock that a log with feedback puts on the form, and the submit
    step that updates the edited log or inserts a new one. */
module LogForm {
  import opened Common

  const DayMs: int := 24 * 60 * 60 * 1000
  /** `subDays(today, 7)` on millisecond instants. */
  const WindowMs: int := 7 * DayMs

  const DateMessage := "Date must be within the last 7 days (including today)."
  const TitleMessage := "Task title is required"
  const DescriptionMessage := "Description is required"
  const NotANumberMessage := "Enter a number"
  const HoursMessage := "Hours must be at least 1"

  const LogsPage := "/user/logs"

  datatype Field = DateWorked | TaskTitle | Description | HoursWorked

  /** One schema violation, reported under the field it belongs to. */
  datatype Issue = Issue(field: Field, message: string)

  /** The form's values. An invalid `Date` is `None`; so is an hours entry that is not
      a number (`Number(…)` gave `NaN`). Dates are millisecond instants. */
  datatype FormData = FormData(dateWorked: Option<int>, taskTitle: string, description: string, hoursWorked: Option<int>)

  /** A row of the `work_logs` table as far as this form reads and writes it. The
      `date_worked` column holds a day, given here as the number of days since
      1970-01-01 (UTC). */
  datatype WorkLog = WorkLog(
    id: string, userId: string, dateWorked: int, taskTitle: string, description: string,
    hoursWorked: int, updatedAt: Option<int>)

  /** The day an instant falls on, as the date column keeps it: the submitted date is sent
      as its UTC ISO text and the column takes its date part. */
  function DayOf(instant: int): int
  {
    instant / DayMs
  }

  /** What reading a stored day back as a date gives: a date-only ISO string is read as
      midnight UTC of that day. */
  function MidnightOf(day: int): int
  {
    day * DayMs
  }

  /** Storing an instant's day and reading it back gives the midnight that starts the
      instant's day: the same day, at most one day earlier. */
  lemma MidnightOfDay(instant: int)
    ensures MidnightOf(DayOf(instant)) <= instant < MidnightOf(DayOf(instant)) + DayMs
    ensures DayOf(MidnightOf(DayOf(instant))) == DayOf(instant)
    ensures MidnightOf(DayOf(instant)) == instant <==> instant % DayMs == 0
  {
  }

  /** The row holds the form's values: the date's day, the title, the description and
      the hours. */
  predicate Stores(w: WorkLog, f: FormData)
  {
    && f.dateWorked.Some? && f.hoursWorked.Some?
    && w.dateWorked == DayOf(f.dateWorked.value)
    && w.taskTitle == f.taskTitle && w.description == f.description
    && w.hoursWorked == f.hoursWorked.value
  }

  /** A valid date no later than now and no earlier than seven days before now. */
  predicate InWindow(date: Option<int>, now: int)
  {
    date.Some? && now - WindowMs <= date.value && date.value <= now
  }

  /** What the schema accepts, stated field by field. */
  predicate Acceptable(f: FormData, now: int)
  {
    && InWindow(f.dateWorked, now)
    && |f.taskTitle| >= 1
    && |f.description| >= 1
    && f.hoursWorked.Some? && f.hoursWorked.value >= 1
  }

  predicate HasIssue(issues: seq<Issue>, field: Field)
  {
    exists i :: 0 <= i < |issues| && issues[i].field == field
  }

  function DateIssues(f: FormData, now: int): seq<Issue>
  {
    if InWindow(f.dateWorked, now) then [] else [Issue(DateWorked, DateMessage)]
  }

  function TextIssues(f: FormData): seq<Issue>
  {
    (if |f.taskTitle| == 0 then [Issue(TaskTitle, TitleMessage)] else [])
    + (if |f.description| == 0 then [Issue(Description, DescriptionMessage)] else [])
  }

  function HoursIssues(f: FormData): seq<Issue>
  {
    match f.hoursWorked
    case None => [Issue(HoursWorked, NotANumberMessage)]
    case Some(h) => if h < 1 then [Issue(HoursWorked, HoursMessage)] else []
  }

  /** `logSchema` applied to the form at instant `now`: every violation, field by field. */
  function Validate(f: FormData, now: int): (issues: seq<Issue>)
    ensures issues == [] <==> Acceptable(f, now)
    ensures |issues| <= 4
    ensures forall i, j :: 0 <= i < j < |issues| ==> issues[i].field != issues[j].field
  {
    DateIssues(f, now) + TextIssues(f) + HoursIssues(f)
  }

  lemma HasIssueConcat(a: seq<Issue>, b: seq<Issue>, field: Field)
    ensures HasIssue(a + b, field) <==> HasIssue(a, field) || HasIssue(b, field)
  {
    if HasIssue(a + b, field) {
      var i :| 0 <= i < |a + b| && (a + b)[i].field == field;
      if i >= |a| {
        assert b[i - |a|].field == field;
      }
    }
    if HasIssue(a, field) {
      var i :| 0 <= i < |a| && a[i].field == field;
      assert (a + b)[i].field == field;
    }
    if HasIssue(b, field) {
      var i :| 0 <= i < |b| && b[i].field == field;
      assert (a + b)[|a| + i].field == field;
    }
  }

  /** Each field is reported exactly when its own rule is broken, independently of the
      other fields. */
  lemma ValidateReportsEachField(f: FormData, now: int)
    ensures HasIssue(Validate(f, now), DateWorked) <==> !InWindow(f.dateWorked, now)
    ensures HasIssue(Validate(f, now), TaskTitle) <==> f.taskTitle == ""
    ensures HasIssue(Validate(f, now), Description) <==> f.description == ""
    ensures HasIssue(Validate(f, now), HoursWorked) <==> f.hoursWorked.None? || f.hoursWorked.value < 1
  {
    var d, t, h := DateIssues(f, now), TextIssues(f), HoursIssues(f);
    var t1: seq<Issue> := if |f.taskTitle| == 0 then [Issue(TaskTitle, TitleMessage)] else [];
    var t2: seq<Issue> := if |f.description| == 0 then [Issue(Description, DescriptionMessage)] else [];
    assert t == t1 + t2;
    assert Validate(f, now) == d + (t + h);
    forall field: Field
      ensures HasIssue(Validate(f, now), field) <==>
        HasIssue(d, field) || HasIssue(t1, field) || HasIssue(t2, field) || HasIssue(h, field)
    {
      HasIssueConcat(d, t + h, field);
      HasIssueConcat(t, h, field);
      HasIssueConcat(t1, t2, field);
    }
    if f.taskTitle == "" {
      assert t1[0].field == TaskTitle;
    }
    if f.description == "" {
      assert t2[0].field == Description;
    }
    if !InWindow(f.dateWorked, now) {
      assert d[0].field == DateWorked;
    }
    if f.hoursWorked.None? || f.hoursWorked.value < 1 {
      assert h[0].field == HoursWorked;
    }
  }

  /** The messages the schema attaches to each kind of violation. */
  lemma IssueMessages(f: FormData, now: int)
    ensures forall i :: 0 <= i < |Validate(f, now)| ==>
      (Validate(f, now)[i] in
        {Issue(DateWorked, DateMessage), Issue(TaskTitle, TitleMessage), Issue(Description, DescriptionMessage),
         Issue(HoursWorked, NotANumberMessage), Issue(HoursWorked, HoursMessage)})
    ensures f.hoursWorked.None? ==> Issue(HoursWorked, NotANumberMessage) in Validate(f, now)
    ensures f.hoursWorked.Some? && f.hoursWorked.value < 1 ==> Issue(HoursWorked, HoursMessage) in Validate(f, now)
  {
    var v := Validate(f, now);
    var d, t, h := DateIssues(f, now), TextIssues(f), HoursIssues(f);
    if f.hoursWorked.None? || f.hoursWorked.value < 1 {
      assert v[|d| + |t|] == h[0];
    }
  }

  /** The form's initial values at the instant the page opens. */
  function DefaultForm(now: int): FormData
  {
    FormData(Some(now), "", "", Some(1))
  }

  /** Submitting the untouched form fails on the title and on the description only. */
  lemma DefaultFormIssues(now: int)
    ensures Validate(DefaultForm(now), now) ==
      [Issue(TaskTitle, TitleMessage), Issue(Description, DescriptionMessage)]
  {
  }

  /** The calendar greys out a day later than now or earlier than seven days before now. */
  predicate CalendarDisabled(date: int, now: int)
  {
    date > now || date < now - WindowMs
  }

  /** A form whose date was picked on the calendar never fails on its date, and a date the
      calendar greys out always does: the schema reports the date field exactly for the
      disabled days. */
  lemma CalendarMatchesSchema(f: FormData, now: int)
    requires f.dateWorked.Some?
    ensures HasIssue(Validate(f, now), DateWorked) <==> CalendarDisabled(f.dateWorked.value, now)
  {
    ValidateReportsEachField(f, now);
  }

  // ---------------------------------------------------------------------------
  // Editing an existing log
  // ---------------------------------------------------------------------------

  /** What the page holds while a log is edited: the form and whether feedback exists. */
  datatype Editor = Editor(form: FormData, feedbackGiven: bool)

  /** The row fetched for `?id=…`: its fields and its embedded `feedback(id)` list,
      `None` when the store returned something that is not an array. */
  datatype FetchedLog = FetchedLog(log: WorkLog, feedbackIds: Option<seq<string>>)

  /** The values a stored log puts back into the form; the date is the stored day's
      midnight. */
  function FormOf(w: WorkLog): FormData
  {
    FormData(Some(MidnightOf(w.dateWorked)), w.taskTitle, w.description, Some(w.hoursWorked))
  }

  /** The embedded feedback is a non-empty list. */
  predicate HasFeedback(ids: Option<seq<string>>)
  {
    ids.Some? && |ids.value| > 0
  }

  /** The page's effect on `?id=…`: without an id nothing is fetched; on a fetch error the
      editor keeps what it had; otherwise the log's values are loaded and the lock is set
      from its feedback. */
  function LoadForEdit(e: Editor, logId: Option<string>, res: Fetch<FetchedLog>): (e': Editor)
    ensures !Truthy(logId) || res.FetchFailed? ==> e' == e
    ensures Truthy(logId) && res.Loaded? ==>
      e'.form == FormOf(res.data.log) &&
      (e'.feedbackGiven <==> res.data.feedbackIds.Some? && |res.data.feedbackIds.value| > 0)
  {
    if !Truthy(logId) then e
    else match res
      case FetchFailed(_) => e
      case Loaded(d) => Editor(FormOf(d.log), HasFeedback(d.feedbackIds))
  }

  /** The controls the form shows. */
  datatype Controls = Controls(heading: string, fieldsDisabled: bool, submitLabel: Option<string>, lockNotice: bool)

  function ControlsFor(logId: Option<string>, feedbackGiven: bool): (c: Controls)
    ensures c.fieldsDisabled <==> feedbackGiven
    ensures c.submitLabel.None? <==> feedbackGiven
    ensures c.lockNotice <==> feedbackGiven
    ensures c.submitLabel.Some? ==> c.submitLabel.value == (if Truthy(logId) then "Update" else "Create")
    ensures c.heading == (if Truthy(logId) then "Update Log" else "Add New Log")
  {
    Controls(
      if Truthy(logId) then "Update Log" else "Add New Log",
      feedbackGiven,
      if feedbackGiven then None else Some(if Truthy(logId) then "Update" else "Create"),
      feedbackGiven)
  }

  /** A log that has received at least one feedback row can no longer be edited: every
      field is disabled and there is no submit button. */
  lemma FeedbackLocksForm(e: Editor, logId: string, d: FetchedLog)
    requires logId != "" && HasFeedback(d.feedbackIds)
    ensures var c := ControlsFor(Some(logId), LoadForEdit(e, Some(logId), Loaded(d)).feedbackGiven);
      c.fieldsDisabled && c.submitLabel.None? && c.lockNotice
  {
  }

  // ---------------------------------------------------------------------------
  // Submitting
  // ---------------------------------------------------------------------------

  /** The `work_logs` table after the write, and where the page navigates. */
  datatype Submitted = Submitted(logs: seq<WorkLog>, navigateTo: Option<string>)

  /** The update of the edited log: every row with that id takes the form's values and the
      update time; its id and owner stay. */
  function UpdateRows(logs: seq<WorkLog>, logId: string, f: FormData, now: int): seq<WorkLog>
    requires f.dateWorked.Some? && f.hoursWorked.Some?
  {
    seq(|logs|, i requires 0 <= i < |logs| =>
      if logs[i].id == logId
      then logs[i].(dateWorked := DayOf(f.dateWorked.value), taskTitle := f.taskTitle,
                    description := f.description, hoursWorked := f.hoursWorked.value,
                    updatedAt := Some(now))
      else logs[i])
  }

  /** `onSubmit`, called with values the schema accepted. `newId` is the id the store
      gives an inserted row, and `writeFails` says whether the store rejected the write. */
  function Submit(logs: seq<WorkLog>, userId: Option<string>, logId: Option<string>, f: FormData,
                  now: int, newId: string, writeFails: bool): (r: Submitted)
    requires Acceptable(f, now)
    ensures !Truthy(userId) || writeFails ==> r == Submitted(logs, None)
    ensures Truthy(userId) && !writeFails ==> r.navigateTo == Some(LogsPage)
    ensures Truthy(userId) && !writeFails && !Truthy(logId) ==>
      |r.logs| == |logs| + 1 && r.logs[..|logs|] == logs &&
      var row := r.logs[|logs|];
      row.id == newId && row.userId == userId.value && Stores(row, f) && row.updatedAt.None?
    ensures Truthy(userId) && !writeFails && Truthy(logId) ==>
      |r.logs| == |logs| &&
      forall i :: 0 <= i < |logs| ==>
        && r.logs[i].id == logs[i].id
        && r.logs[i].userId == logs[i].userId
        && (logs[i].id != logId.value ==> r.logs[i] == logs[i])
        && (logs[i].id == logId.value ==> Stores(r.logs[i], f) && r.logs[i].updatedAt == Some(now))
  {
    if !Truthy(userId) || writeFails then Submitted(logs, None)
    else if Truthy(logId) then Submitted(UpdateRows(logs, logId.value, f, now), Some(LogsPage))
    else
      var row := WorkLog(newId, userId.value, DayOf(f.dateWorked.value), f.taskTitle, f.description,
                         f.hoursWorked.value, None);
      Submitted(logs + [row], Some(LogsPage))
  }

  /** Saving and then reopening the log for editing shows the title, description and
      hours just submitted, and the midnight (UTC) that starts the submitted date's day,
      whether the submit inserted a new row or updated the edited one. */
  lemma SubmitThenReload(logs: seq<WorkLog>, userId: string, logId: Option<string>, f: FormData,
                         now: int, newId: string, k: nat)
    requires userId != "" && Acceptable(f, now)
    requires var r := Submit(logs, Some(userId), logId, f, now, newId, false);
      k < |r.logs| && r.logs[k].id == (if Truthy(logId) then logId.value else newId)
    requires !Truthy(logId) ==> forall i :: 0 <= i < |logs| ==> logs[i].id != newId
    ensures var g := FormOf(Submit(logs, Some(userId), logId, f, now, newId, false).logs[k]);
      && g.taskTitle == f.taskTitle && g.description == f.description && g.hoursWorked == f.hoursWorked
      && g.dateWorked == Some(MidnightOf(DayOf(f.dateWorked.value)))
      && g.dateWorked.value <= f.dateWorked.value < g.dateWorked.value + DayMs
  {
    MidnightOfDay(f.dateWorked.value);
  }

  /** A log dated on the window's first day reopens with a date the schema rejects, unless
      the page was opened exactly at a UTC midnight: its day's midnight lies before
      `now - 7 days`, so the edit cannot be saved until the date is picked again. */
  lemma EdgeDayReloadsOutsideWindow(w: WorkLog, now: int)
    requires w.dateWorked == DayOf(now - WindowMs)
    ensures InWindow(FormOf(w).dateWorked, now) <==> now % DayMs == 0
  {
    MidnightOfDay(now - WindowMs);
  }

  /** Editing never moves a log to another owner: the owners of all rows, in order, are
      the same before and after any submit. */
  lemma SubmitKeepsOwners(logs: seq<WorkLog>, userId: Option<string>, logId: Option<string>, f: FormData,
                          now: int, newId: string, writeFails: bool)
    requires Acceptable(f, now)
    ensures var r := Submit(logs, userId, logId, f, now, newId, writeFails);
      |logs| <= |r.logs| && forall i :: 0 <= i < |logs| ==> r.logs[i].userId == logs[i].userId
  {
  }
}

=== FILE: log_list.dfy ===
/** The intern's list of logs, `/user/logs`: the fetched rows with their feedback list
    reduced to one value, numbered from 1, labelled "Received" or "Pending", each row
    opening the log's view page. */
module LogList {
  import opened Common

  const ViewPage := "/user/log-view"
  const Received := "Received"
  const Pending := "Pending"

  /** One row of the embedded `feedback(id)` relation. */
  datatype FeedbackRef = FeedbackRef(id: string)

  /** A fetched log; `F` is the raw feedback list or, after normalisation, one reference. */
  datatype LogItem<F> = LogItem(id: string, taskTitle: string, dateWorked: string, hoursWorked: int, feedback: F)

  type RawItem = LogItem<Option<seq<FeedbackRef>>>
  type Item = LogItem<Option<FeedbackRef>>

  function NormaliseItem(raw: RawItem): Item
  {
    LogItem(raw.id, raw.taskTitle, raw.dateWorked, raw.hoursWorked, FirstOrNone(raw.feedback))
  }

  /** The fetched rows, none when the store returned no list: each row keeps its fields and its feedback becomes the first
      element of a non-empty list, or `None`. */
  function Normalise(data: Option<seq<RawItem>>): (items: seq<Item>)
    ensures data.None? ==> items == []
    ensures data.Some? ==> |items| == |data.value|
    ensures data.Some? ==> forall i :: 0 <= i < |items| ==>
      && items[i].id == data.value[i].id
      && items[i].taskTitle == data.value[i].taskTitle
      && items[i].dateWorked == data.value[i].dateWorked
      && items[i].hoursWorked == data.value[i].hoursWorked
      && (items[i].feedback.Some? <==> data.value[i].feedback.Some? && |data.value[i].feedback.value| > 0)
      && (items[i].feedback.Some? ==> items[i].feedback.value == data.value[i].feedback.value[0])
  {
    if data.None? then []
    else seq(|data.value|, i requires 0 <= i < |data.value| => NormaliseItem(data.value[i]))
  }

  /** Whether the list is fetched at all: only for a signed-in user. */
  predicate FetchesOnMount(userId: Option<string>)
  {
    Truthy(userId)
  }

  /** The end of `fetchLogs`: on an error the shown list is kept, otherwise replaced. */
  function AfterFetch(shown: seq<Item>, res: Fetch<Option<seq<RawItem>>>): (items: seq<Item>)
    ensures res.FetchFailed? ==> items == shown
    ensures res.Loaded? ==> items == Normalise(res.data)
  {
    match res
    case FetchFailed(_) => shown
    case Loaded(d) => Normalise(d)
  }

  /** "Received" for a log with feedback, "Pending" otherwise. */
  function Status(item: Item): string
  {
    if item.feedback.Some? then Received else Pending
  }

  /** One line of the table, and where clicking it goes. */
  datatype TableRow = TableRow(number: nat, taskTitle: string, status: string, dateWorked: string,
                               hoursWorked: int, href: string)

  function Table(items: seq<Item>): (rows: seq<TableRow>)
    ensures |rows| == |items|
  {
    seq(|items|, i requires 0 <= i < |items| =>
      TableRow(i + 1, items[i].taskTitle, Status(items[i]), items[i].dateWorked, items[i].hoursWorked,
               ViewPage + "?id=" + items[i].id))
  }

  /** The table after a successful fetch: one line per fetched row in the store's order,
      numbered from 1, "Received" exactly for the rows whose feedback list is non-empty,
      each linking to that row's view page. */
  lemma TableFollowsFetch(shown: seq<Item>, data: seq<RawItem>)
    ensures var rows := Table(AfterFetch(shown, Loaded(Some(data))));
      && |rows| == |data|
      && forall i :: 0 <= i < |data| ==>
        && rows[i].number == i + 1
        && rows[i].taskTitle == data[i].taskTitle
        && rows[i].dateWorked == data[i].dateWorked
        && rows[i].hoursWorked == data[i].hoursWorked
        && (rows[i].status == Received <==> data[i].feedback.Some? && |data[i].feedback.value| > 0)
        && (rows[i].status == Pending <==> !(data[i].feedback.Some? && |data[i].feedback.value| > 0))
        && rows[i].href == ViewPage + "?id=" + data[i].id
  {
  }

  const NoLogsText := "No logs found. Start by adding one!"

  datatype Screen = Loading | NoLogs(text: string) | Rows(rows: seq<TableRow>)

  function Render(loading: bool, items: seq<Item>): (s: Screen)
    ensures loading <==> s == Loading
    ensures s.NoLogs? <==> !loading && items == []
    ensures s.Rows? ==> s.rows == Table(items) && |s.rows| > 0
  {
    if loading then Loading
    else if |items| == 0 then NoLogs(NoLogsText)
    else Rows(Table(items))
  }

  /** The screen once the mount effect has settled, from the initial empty list: without a
      signed-in user nothing is fetched; otherwise `res` is the fetch's answer. */
  function Mounted(userId: Option<string>, res: Fetch<Option<seq<RawItem>>>): (s: Screen)
    ensures !FetchesOnMount(userId) ==> s == NoLogs(NoLogsText)
    ensures FetchesOnMount(userId) && res.Loaded? && res.data.Some? && |res.data.value| > 0 ==>
      s.Rows? && |s.rows| == |res.data.value|
  {
    Render(false, if FetchesOnMount(userId) then AfterFetch([], res) else [])
  }

  /** The empty-list notice shows after mounting exactly when no user is signed in, the
      fetch failed, or the store returned no rows: a signed-out visit and a failed fetch
      look the same as an empty list. */
  lemma MountedNoticeIff(userId: Option<string>, res: Fetch<Option<seq<RawItem>>>)
    ensures Mounted(userId, res) == NoLogs(NoLogsText) <==>
      !Truthy(userId) || res.FetchFailed? || res.data.None? || |res.data.value| == 0
  {
  }
}

=== FILE: log_view.dfy ===
/** The read-only view of one of the intern's logs, `/user/log-view?id=…`: without an id
    it goes back to the list; otherwise it loads the log with its feedback, shows the
    feedback or "No feedback yet.", and offers an Edit link only while no feedback exists. */
module LogView {
  import opened Common
  import RouteGuard

  const LogsPage := "/user/logs"
  const EditPage := "/user/log"
  const NoFeedbackText := "No feedback yet."
  const NotFoundText := "Log not found."

  /** One row of the embedded `feedback(feedback_text)` relation. */
  datatype Note = Note(feedbackText: string)

  /** The loaded log; `F` is the raw feedback list or, after normalisation, one note. */
  datatype LogData<F> = LogData(
    id: string, taskTitle: string, description: string, dateWorked: string, hoursWorked: int, feedback: F)

  /** What the page does when mounted with the `id` query parameter. */
  datatype MountEffect = PushTo(path: string) | FetchLog(id: string)

  function OnMount(logId: Option<string>): (e: MountEffect)
    ensures e == PushTo(LogsPage) <==> !Truthy(logId)
    ensures Truthy(logId) ==> e == FetchLog(logId.value)
  {
    if !Truthy(logId) then PushTo(LogsPage) else FetchLog(logId.value)
  }

  /** The fetched row with its feedback list replaced by the first element, or absent. */
  function Normalise(raw: LogData<Option<seq<Note>>>): (n: LogData<Option<Note>>)
    ensures n.id == raw.id && n.taskTitle == raw.taskTitle && n.description == raw.description
    ensures n.dateWorked == raw.dateWorked && n.hoursWorked == raw.hoursWorked
    ensures n.feedback.Some? <==> raw.feedback.Some? && |raw.feedback.value| > 0
    ensures n.feedback.Some? ==> n.feedback.value == raw.feedback.value[0]
  {
    LogData(raw.id, raw.taskTitle, raw.description, raw.dateWorked, raw.hoursWorked, FirstOrNone(raw.feedback))
  }

  /** The page's state: the shown log, if any, and whether a fetch is under way. */
  datatype PageState = PageState(log: Option<LogData<Option<Note>>>, loading: bool)

  /** The end of `fetchLog`: on an error the log stays as it was; loading always ends. */
  function AfterFetch(st: PageState, res: Fetch<LogData<Option<seq<Note>>>>): (st': PageState)
    ensures !st'.loading
    ensures res.FetchFailed? ==> st'.log == st.log
    ensures res.Loaded? ==> st'.log == Some(Normalise(res.data))
  {
    match res
    case FetchFailed(_) => PageState(st.log, false)
    case Loaded(d) => PageState(Some(Normalise(d)), false)
  }

  datatype Screen =
    | Loading
    | NotFound(text: string)
    | Details(log: LogData<Option<Note>>, feedbackLine: string, editLink: Option<string>, backLink: string)

  function Render(st: PageState): (s: Screen)
    ensures st.loading <==> s == Loading
    ensures !st.loading && st.log.None? <==> s == NotFound(NotFoundText)
    ensures s.Details? ==> s.log == st.log.value && s.backLink == LogsPage
    ensures s.Details? ==> (s.editLink.Some? <==> s.log.feedback.None?)
    ensures s.Details? && s.editLink.Some? ==> s.editLink.value == EditPage + "?id=" + s.log.id
    ensures s.Details? ==>
      s.feedbackLine == (if s.log.feedback.Some? then s.log.feedback.value.feedbackText else NoFeedbackText)
  {
    if st.loading then Loading
    else if st.log.None? then NotFound(NotFoundText)
    else
      var log := st.log.value;
      var given := log.feedback.Some?;
      Details(log,
              if given then log.feedback.value.feedbackText else NoFeedbackText,
              if given then None else Some(EditPage + "?id=" + log.id),
              LogsPage)
  }

  /** A page opened with an id whose fetch fails says "Log not found." once loading ends. */
  lemma FailedFetchShowsNotFound(message: string)
    ensures Render(AfterFetch(PageState(None, true), FetchFailed(message))) == NotFound(NotFoundText)
  {
  }

  /** After a successful fetch the Edit link is offered exactly when the log's feedback
      list is absent or empty. */
  lemma EditLinkIffNoFeedback(st: PageState, raw: LogData<Option<seq<Note>>>)
    ensures var s := Render(AfterFetch(st, Loaded(raw)));
      s.Details? && (s.editLink.Some? <==> raw.feedback.None? || |raw.feedback.value| == 0)
  {
  }

  /** The Edit link and the Back link lead to pages a signed-in `user` session may open. */
  lemma LinksStayInUserScope(userId: string)
    requires userId != ""
    ensures RouteGuard.Guard(RouteGuard.Request(Some(userId), Some(RouteGuard.UserRole), EditPage)) == RouteGuard.Next
    ensures RouteGuard.Guard(RouteGuard.Request(Some(userId), Some(RouteGuard.UserRole), LogsPage)) == RouteGuard.Next
  {
    RouteGuard.OwnersPassTheirScope(RouteGuard.Request(Some(userId), Some(RouteGuard.UserRole), EditPage));
    RouteGuard.OwnersPassTheirScope(RouteGuard.Request(Some(userId), Some(RouteGuard.UserRole), LogsPage));
  }
}

=== FILE: route_guard.dfy ===
/** The request-time route guard: from the session (signed-in user id and role claim)
    and the requested path it decides to pass the request on, to send the visitor to
    the identity provider's sign-in page, or to redirect to `/unauthorized` or to the
    role's home page. The decision is a pure function of its three inputs. */
module RouteGuard {
  import opened Common

  const Root := "/"
  const AdminScope := "/admin"
  const UserScope := "/user"
  const Unauthorized := "/unauthorized"
  const AdminHome := "/admin/dashboard"
  const UserHome := "/user/dashboard"

  const AdminRole := "admin"
  const UserRole := "user"

  /** What the guard sees of one request: the session's user id (absent when signed
      out), the `metadata.role` claim of the session, and the URL's path name. */
  datatype Request = Request(userId: Option<string>, role: Option<string>, path: string)

  /** Pass the request on, send the visitor to sign in, or redirect to a path. */
  datatype Decision = Next | RedirectToSignIn | Redirect(target: string)

  /** An upper-case ASCII letter as its lower-case letter; every other character as it is. */
  function LowerAscii(c: char): (l: char)
    ensures 'A' <= c <= 'Z' ==> 'a' <= l <= 'z' && l as int == c as int + 32
    ensures !('A' <= c <= 'Z') ==> l == c
  {
    if 'A' <= c <= 'Z' then (c as int + 32) as char else c
  }

  /** The path with its ASCII letters in lower case. */
  function FoldCase(s: string): (f: string)
    ensures |f| == |s| && forall i :: 0 <= i < |s| ==> f[i] == LowerAscii(s[i])
  {
    seq(|s|, i requires 0 <= i < |s| => LowerAscii(s[i]))
  }

  /** The public-route matcher for the patterns `/sign-in`, `/sign-up`, `/unauthorized`
      and `/api/webhooks`, each followed by anything. The patterns are compiled to
      regular expressions that ignore case, so a path is public when it starts with one of
      the four literal parts up to the case of its letters. The literal parts are ASCII,
      and a case-insensitive regular expression never matches an ASCII letter with a
      character outside ASCII, so folding ASCII case is exact here. */
  predicate IsPublic(path: string)
  {
    var p := FoldCase(path);
    || StartsWith(p, "/sign-in")
    || StartsWith(p, "/sign-up")
    || StartsWith(p, "/unauthorized")
    || StartsWith(p, "/api/webhooks")
  }

  /** Two paths that differ only in the case of their letters are both public or both
      not. */
  lemma PublicIgnoresCase(p: string, q: string)
    requires FoldCase(p) == FoldCase(q)
    ensures IsPublic(p) <==> IsPublic(q)
  {
  }

  /** A path is public exactly when its lower-case form is. */
  lemma PublicOfFolded(path: string)
    ensures IsPublic(path) <==> IsPublic(FoldCase(path))
  {
    var p := FoldCase(path);
    assert FoldCase(p) == p;
  }

  predicate SignedIn(req: Request)
  {
    Truthy(req.userId)
  }

  predicate HasRole(req: Request, role: string)
  {
    req.role == Some(role)
  }

  /** The middleware callback, branch for branch. */
  function Guard(req: Request): (d: Decision)
    ensures d.Redirect? ==> d.target in {Unauthorized, AdminHome, UserHome}
    ensures d == RedirectToSignIn ==> !SignedIn(req)
    ensures d.Redirect? ==> SignedIn(req)
  {
    if !SignedIn(req) && !IsPublic(req.path) then RedirectToSignIn
    else if SignedIn(req) then
      if StartsWith(req.path, AdminScope) && !HasRole(req, AdminRole) then Redirect(Unauthorized)
      else if StartsWith(req.path, UserScope) && !HasRole(req, UserRole) then Redirect(Unauthorized)
      else if req.path == Root && HasRole(req, AdminRole) then Redirect(AdminHome)
      else if req.path == Root && HasRole(req, UserRole) then Redirect(UserHome)
      else Next
    else Next
  }

  // ---------------------------------------------------------------------------
  // Reference policy: an explicit ordered rule list, evaluated first match wins.
  // Unlike the middleware it lets a public path through before anything else.
  // ---------------------------------------------------------------------------

  datatype Rule = PublicRule | AuthRule | ScopeRule | RootRedirectRule

  /** The decision a rule takes on a request, or `None` when it does not apply. */
  function Apply(rule: Rule, req: Request): Option<Decision>
  {
    match rule
    case PublicRule => if IsPublic(req.path) then Some(Next) else None
    case AuthRule => if !SignedIn(req) then Some(RedirectToSignIn) else None
    case ScopeRule =>
      if (StartsWith(req.path, AdminScope) && !HasRole(req, AdminRole))
         || (StartsWith(req.path, UserScope) && !HasRole(req, UserRole))
      then Some(Redirect(Unauthorized))
      else None
    case RootRedirectRule =>
      if req.path != Root then None
      else if HasRole(req, AdminRole) then Some(Redirect(AdminHome))
      else if HasRole(req, UserRole) then Some(Redirect(UserHome))
      else None
  }

  function FirstMatch(rules: seq<Rule>, req: Request): Decision
  {
    if |rules| == 0 then Next
    else match Apply(rules[0], req)
      case Some(d) => d
      case None => FirstMatch(rules[1..], req)
  }

  const Policy: seq<Rule> := [PublicRule, AuthRule, ScopeRule, RootRedirectRule]

  /** No public path is the root or lies in the `/admin` or `/user` scope, so the
      middleware's scope and root rules never fire on a public path. */
  lemma PublicIsUnscoped(path: string)
    requires IsPublic(path)
    ensures !StartsWith(path, AdminScope) && !StartsWith(path, UserScope) && path != Root
  {
    var p := FoldCase(path);
    assert |p| >= 8 && p[0] == '/';
    assert p[1] in {'s', 'u', 'a'};
    if p[1] == 'u' {
      assert StartsWith(p, "/unauthorized");
      assert p[2] == 'n' && LowerAscii(path[2]) == 'n';
    } else if p[1] == 'a' {
      assert StartsWith(p, "/api/webhooks");
      assert p[2] == 'p' && LowerAscii(path[2]) == 'p';
    }
  }

  /** The middleware and the ordered rule list decide every request the same way. */
  lemma GuardFollowsPolicy(req: Request)
    ensures Guard(req) == FirstMatch(Policy, req)
  {
    var last := [RootRedirectRule];
    assert last[1..] == [];
    var scoped := [ScopeRule] + last;
    assert scoped[1..] == last;
    var authed := [AuthRule] + scoped;
    assert authed[1..] == scoped;
    assert Policy == [PublicRule] + authed && Policy[1..] == authed;
    var root := Apply(RootRedirectRule, req).GetOr(Next);
    assert FirstMatch(last, req) == root;
    var scope := Apply(ScopeRule, req);
    assert FirstMatch(scoped, req) == if scope.Some? then scope.value else root;
    var auth := Apply(AuthRule, req);
    assert FirstMatch(authed, req) == if auth.Some? then auth.value else FirstMatch(scoped, req);
    if IsPublic(req.path) {
      PublicIsUnscoped(req.path);
    }
  }

  /** A visitor is sent to sign in exactly when signed out and asking for a non-public
      path; `/SIGN-IN` is as public as `/sign-in`. */
  lemma SignInIff(req: Request)
    ensures Guard(req) == RedirectToSignIn <==> !SignedIn(req) && !IsPublic(req.path)
  {
  }

  /** A public path is never redirected, whatever the session and the role. */
  lemma PublicAlwaysPasses(req: Request)
    requires IsPublic(req.path)
    ensures Guard(req) == Next
  {
    PublicIsUnscoped(req.path);
  }

  /** A signed-in session without the `admin` role, a missing role included, is sent to
      `/unauthorized` from every `/admin` path. */
  lemma AdminScopeDenied(req: Request)
    requires SignedIn(req) && StartsWith(req.path, AdminScope) && !HasRole(req, AdminRole)
    ensures Guard(req) == Redirect(Unauthorized)
  {
  }

  /** A signed-in session without the `user` role is sent to `/unauthorized` from every
      path that starts with `/user` (a raw prefix, so `/users…` is caught as well). */
  lemma UserScopeDenied(req: Request)
    requires SignedIn(req) && StartsWith(req.path, UserScope) && !HasRole(req, UserRole)
    ensures Guard(req) == Redirect(Unauthorized)
  {
  }

  /** `/unauthorized` is reached exactly on a scope mismatch of a signed-in session. */
  lemma UnauthorizedIff(req: Request)
    ensures Guard(req) == Redirect(Unauthorized) <==>
      SignedIn(req) &&
      ((StartsWith(req.path, AdminScope) && !HasRole(req, AdminRole)) ||
       (StartsWith(req.path, UserScope) && !HasRole(req, UserRole)))
  {
  }

  /** On exactly `/` a signed-in admin goes to the admin home, a user to the user home,
      and any other or missing role passes through. */
  lemma RootRedirects(req: Request)
    requires SignedIn(req) && req.path == Root
    ensures HasRole(req, AdminRole) ==> Guard(req) == Redirect(AdminHome)
    ensures HasRole(req, UserRole) ==> Guard(req) == Redirect(UserHome)
    ensures !HasRole(req, AdminRole) && !HasRole(req, UserRole) ==> Guard(req) == Next
  {
  }

  /** A signed-in admin is never turned away from an `/admin` path, nor a user from a
      `/user` path. */
  lemma OwnersPassTheirScope(req: Request)
    requires SignedIn(req)
    ensures HasRole(req, AdminRole) && StartsWith(req.path, AdminScope) ==> Guard(req) == Next
    ensures HasRole(req, UserRole) && StartsWith(req.path, UserScope) ==> Guard(req) == Next
  {
    if HasRole(req, AdminRole) && StartsWith(req.path, AdminScope) {
      assert req.path[1] == 'a';
    }
    if HasRole(req, UserRole) && StartsWith(req.path, UserScope) {
      assert req.path[1] == 'u';
    }
  }

  /** No role, and no absence of a role, is let into both scopes. */
  lemma NoRoleInBothScopes(userId: Option<string>, role: Option<string>, adminPath: string, userPath: string)
    requires Truthy(userId)
    requires StartsWith(adminPath, AdminScope) && StartsWith(userPath, UserScope)
    ensures !(Guard(Request(userId, role, adminPath)) == Next && Guard(Request(userId, role, userPath)) == Next)
  {
  }

  /** The role is read only for a signed-in session: a signed-out request is passed on
      or sent to sign in, never to `/unauthorized` or a role home, and its role claim
      does not change the decision. */
  lemma SignedOutIgnoresRole(userId: Option<string>, role1: Option<string>, role2: Option<string>, path: string)
    requires !Truthy(userId)
    ensures Guard(Request(userId, role1, path)) in {Next, RedirectToSignIn}
    ensures Guard(Request(userId, role1, path)) == Guard(Request(userId, role2, path))
  {
  }
}

=== FILE: user_dashboard.dfy ===
/** The intern's dashboard: the number of logs and hours of the past year, and an
    activity heat map with one bucket per worked day, coloured by how many logs the day
    has. */
module UserDashboard {
  import opened Common

  const EmptyClass := "color-empty"
  const LevelPrefix := "color-github-"

  /** A fetched `work_logs` row: its day (an ISO date string) and its hours, if any. */
  datatype DayRow = DayRow(dateWorked: string, hoursWorked: Option<int>)

  /** One heat-map value: a day and the number of logs on it. */
  datatype Bucket = Bucket(date: string, count: int)

  /** The dashboard's figures; `None` until the first successful fetch. */
  datatype Stats = Stats(totalLogs: Option<nat>, totalHours: Option<int>, heatmap: Option<seq<Bucket>>)

  function Dates(rows: seq<DayRow>): (ds: seq<string>)
    ensures |ds| == |rows| && forall i :: 0 <= i < |rows| ==> ds[i] == rows[i].dateWorked
  {
    seq(|rows|, i requires 0 <= i < |rows| => rows[i].dateWorked)
  }

  function Hours(rows: seq<DayRow>): (hs: seq<Option<int>>)
    ensures |hs| == |rows| && forall i :: 0 <= i < |rows| ==> hs[i] == rows[i].hoursWorked
  {
    seq(|rows|, i requires 0 <= i < |rows| => rows[i].hoursWorked)
  }

  /** How many of `dates` equal `d`. */
  function Occurrences(dates: seq<string>, d: string): nat
  {
    if |dates| == 0 then 0
    else Occurrences(dates[..|dates| - 1], d) + (if dates[|dates| - 1] == d then 1 else 0)
  }

  /** The distinct days of `dates` in the order they first appear: the order in which
      `Object.entries` lists the keys of the `counts` record (ISO dates are never
      array-index keys, so insertion order applies). */
  function FirstAppearances(dates: seq<string>): seq<string>
  {
    if |dates| == 0 then []
    else
      var earlier := FirstAppearances(dates[..|dates| - 1]);
      if dates[|dates| - 1] in earlier then earlier else earlier + [dates[|dates| - 1]]
  }

  function BucketDates(bs: seq<Bucket>): (ds: seq<string>)
    ensures |ds| == |bs| && forall j :: 0 <= j < |bs| ==> ds[j] == bs[j].date
  {
    seq(|bs|, j requires 0 <= j < |bs| => bs[j].date)
  }

  function SumCounts(bs: seq<Bucket>): int
  {
    if |bs| == 0 then 0 else SumCounts(bs[..|bs| - 1]) + bs[|bs| - 1].count
  }

  predicate Distinct(ds: seq<string>)
  {
    forall j, k :: 0 <= j < k < |ds| ==> ds[j] != ds[k]
  }

  lemma {:induction false} FirstAppearancesContent(dates: seq<string>)
    ensures Distinct(FirstAppearances(dates))
    ensures forall d :: d in FirstAppearances(dates) <==> d in dates
  {
    if |dates| > 0 {
      var init := dates[..|dates| - 1];
      FirstAppearancesContent(init);
      assert dates == init + [dates[|dates| - 1]];
    }
  }

  lemma {:induction false} OccurrencesPositive(dates: seq<string>, d: string)
    requires d in dates
    ensures Occurrences(dates, d) >= 1
  {
    var init := dates[..|dates| - 1];
    if dates[|dates| - 1] != d {
      assert dates == init + [dates[|dates| - 1]];
      OccurrencesPositive(init, d);
    }
  }

  lemma {:induction false} SumCountsBump(bs: seq<Bucket>, k: nat)
    requires k < |bs|
    ensures SumCounts(bs[k := Bucket(bs[k].date, bs[k].count + 1)]) == SumCounts(bs) + 1
  {
    var bs' := bs[k := Bucket(bs[k].date, bs[k].count + 1)];
    if k < |bs| - 1 {
      assert bs'[..|bs'| - 1] == bs[..|bs| - 1][k := Bucket(bs[k].date, bs[k].count + 1)];
      SumCountsBump(bs[..|bs| - 1], k);
    } else {
      assert bs'[..|bs'| - 1] == bs[..|bs| - 1];
    }
  }

  /** The position of `d` among the buckets' days, or `|bs|` when it has none. */
  function IndexOf(bs: seq<Bucket>, d: string): (k: nat)
    ensures k <= |bs|
    ensures k < |bs| ==> bs[k].date == d
    ensures k == |bs| ==> d !in BucketDates(bs)
  {
    if |bs| == 0 then 0
    else if bs[0].date == d then 0
    else
      assert BucketDates(bs) == [bs[0].date] + BucketDates(bs[1..]);
      1 + IndexOf(bs[1..], d)
  }

  lemma {:induction false} OccurrencesAbsent(dates: seq<string>, d: string)
    requires d !in dates
    ensures Occurrences(dates, d) == 0
  {
    if |dates| > 0 {
      var init := dates[..|dates| - 1];
      assert dates == init + [dates[|dates| - 1]];
      OccurrencesAbsent(init, d);
    }
  }

  /** The buckets count the days `ds` exactly: the loop invariant of `CountPerDay`. */
  ghost predicate Counted(bs: seq<Bucket>, ds: seq<string>)
  {
    && BucketDates(bs) == FirstAppearances(ds)
    && (forall j :: 0 <= j < |bs| ==> bs[j].count == Occurrences(ds, bs[j].date))
    && SumCounts(bs) == |ds|
  }

  /** One step of the count: the day's bucket goes up by one, or a new bucket with count
      one is added at the end. */
  function Tally(bs: seq<Bucket>, d: string): seq<Bucket>
  {
    var k := IndexOf(bs, d);
    if k < |bs| then bs[k := Bucket(d, bs[k].count + 1)] else bs + [Bucket(d, 1)]
  }

  lemma TallyCounts(bs: seq<Bucket>, ds: seq<string>, d: string)
    requires Counted(bs, ds)
    ensures Counted(Tally(bs, d), ds + [d])
  {
    var ds' := ds + [d];
    assert ds'[..|ds'| - 1] == ds;
    FirstAppearancesContent(ds);
    var k := IndexOf(bs, d);
    var bs' := Tally(bs, d);
    if k < |bs| {
      SumCountsBump(bs, k);
      assert BucketDates(bs') == BucketDates(bs);
      forall j | 0 <= j < |bs'|
        ensures bs'[j].count == Occurrences(ds', bs'[j].date)
      {
        if j != k {
          assert BucketDates(bs)[j] != BucketDates(bs)[k];
        }
      }
    } else {
      assert d !in ds;
      OccurrencesAbsent(ds, d);
      assert bs'[..|bs'| - 1] == bs;
      assert BucketDates(bs') == BucketDates(bs) + [d];
      forall j | 0 <= j < |bs'|
        ensures bs'[j].count == Occurrences(ds', bs'[j].date)
      {
        if j < |bs| {
          assert bs[j].date in BucketDates(bs);
        }
      }
    }
  }

  /** The `counts` record and its `Object.entries`: one bucket per distinct day, in order
      of first appearance, each counting that day's logs; the counts add up to the number
      of logs. */
  method CountPerDay(dates: seq<string>) returns (buckets: seq<Bucket>)
    ensures Counted(buckets, dates)
    ensures forall j :: 0 <= j < |buckets| ==> buckets[j].count >= 1
    ensures forall i :: 0 <= i < |dates| ==> dates[i] in BucketDates(buckets)
    ensures Distinct(BucketDates(buckets))
  {
    buckets := [];
    var i := 0;
    while i < |dates|
      invariant 0 <= i <= |dates|
      invariant Counted(buckets, dates[..i])
    {
      TallyCounts(buckets, dates[..i], dates[i]);
      assert dates[..i + 1] == dates[..i] + [dates[i]];
      buckets := Tally(buckets, dates[i]);
      i := i + 1;
    }
    assert dates[..i] == dates;
    FirstAppearancesContent(dates);
    forall j | 0 <= j < |buckets|
      ensures buckets[j].count >= 1
    {
      assert buckets[j].date in BucketDates(buckets);
      OccurrencesPositive(dates, buckets[j].date);
    }
  }

  /** The end of the page's fetch: on an error nothing is set; otherwise the total is the
      row count, the hours are summed with missing values as 0, and the heat map gets one
      bucket per distinct day, in order of first appearance, counting that day's rows. */
  method AfterFetch(st: Stats, res: Fetch<seq<DayRow>>) returns (st': Stats)
    ensures res.FetchFailed? ==> st' == st
    ensures res.Loaded? ==> st'.totalLogs == Some(|res.data|)
    ensures res.Loaded? ==> st'.totalHours == Some(SumHours(Hours(res.data)))
    ensures res.Loaded? ==> st'.heatmap.Some? && SumCounts(st'.heatmap.value) == |res.data|
    ensures res.Loaded? ==> BucketDates(st'.heatmap.value) == FirstAppearances(Dates(res.data))
    ensures res.Loaded? ==> Counted(st'.heatmap.value, Dates(res.data))
    ensures res.Loaded? ==> forall j :: 0 <= j < |st'.heatmap.value| ==> st'.heatmap.value[j].count >= 1
  {
    match res {
      case FetchFailed(_) =>
        st' := st;
      case Loaded(rows) =>
        var buckets := CountPerDay(Dates(rows));
        st' := Stats(Some(|rows|), Some(SumHours(Hours(rows))), Some(buckets));
    }
  }

  const HeatClasses: set<string> :=
    {EmptyClass, LevelPrefix + "1", LevelPrefix + "2", LevelPrefix + "3", LevelPrefix + "4"}

  /** `classForValue`: no value or a zero count is empty, four or more is the top level,
      and counts in between name their own level. */
  function ClassForValue(v: Option<Bucket>): (c: string)
    ensures c == EmptyClass <==> v.None? || v.value.count == 0
    ensures v.Some? && v.value.count >= 0 ==> c in HeatClasses
  {
    if v.None? || v.value.count == 0 then EmptyClass
    else if v.value.count >= 4 then LevelPrefix + "4"
    else LevelPrefix + IntToString(v.value.count)
  }

  /** A day with `n` logs gets level `min(n, 4)`; distinct levels get distinct classes. */
  lemma ClassLevel(b: Bucket)
    requires b.count >= 1
    ensures ClassForValue(Some(b)) == LevelPrefix + NatToString(if b.count >= 4 then 4 else b.count)
  {
  }

  /** Every bucket the page builds is coloured with one of the four non-empty levels. */
  lemma BucketsAreNeverEmptyColoured(buckets: seq<Bucket>, j: nat)
    requires j < |buckets| && buckets[j].count >= 1
    ensures ClassForValue(Some(buckets[j])) in HeatClasses - {EmptyClass}
  {
  }

  /** The tooltip of a heat-map cell: `"<date>: <n> log"`, plural unless `n` is 1, and
      no tooltip for a cell without a date. */
  function Tooltip(date: Option<string>, count: int): (t: Option<string>)
    ensures t.None? <==> !Truthy(date)
    ensures t.Some? ==> StartsWith(t.value, date.value + ": ")
  {
    if !Truthy(date) then None
    else Some(date.value + ": " + IntToString(count) + " log" + (if count != 1 then "s" else ""))
  }

  /** The tooltip ends in " logs" exactly when the count is not 1, and in " log" exactly
      when it is 1. */
  lemma TooltipPlural(date: string, count: int)
    requires date != ""
    ensures var t := Tooltip(Some(date), count).value;
      && |t| >= 5
      && (t[|t| - 5..] == " logs" <==> count != 1)
      && (t[|t| - 4..] == " log" <==> count == 1)
  {
    var t := Tooltip(Some(date), count).value;
    if count == 1 {
      assert t[|t| - 5..][4] == 'g';
    } else {
      assert t[|t| - 4..][0] == 'l';
    }
  }

  /** The tooltip shows the count: the digits after "<date>: " read back as the count. */
  lemma TooltipCount(date: string, count: nat)
    requires date != ""
    ensures var t, p := Tooltip(Some(date), count).value, date + ": ";
      |p| <= |t| && t[..|p|] == p && LeadingDigits(t[|p|..]) == NatToString(count)
      && ParseNat(LeadingDigits(t[|p|..])) == count
  {
    var p, n := date + ": ", NatToString(count);
    var rest := " log" + (if count != 1 then "s" else "");
    var t := Tooltip(Some(date), count).value;
    assert t == p + (n + rest);
    assert t[|p|..] == n + rest;
    LeadingDigitsOf(n, rest);
    ParseNatToString(count);
  }
}

=== FILE: users_api.dfy ===
/** `GET /api/users`: every `users` row that passes the user schema, with its columns
    renamed to the schema's field names; rows that fail the schema are skipped. */
module UsersApi {
  import opened Common

  const CredentialsMissing := "Supabase credentials missing"
  const NoData := "No data"
  const MaxNameLength := 255

  /** The earliest and latest instants (milliseconds since the epoch) whose ISO form has a
      four-digit year, 0000-01-01T00:00:00.000Z and 9999-12-31T23:59:59.999Z: the range
      the schema's datetime format accepts from `toISOString`. */
  const MinIsoInstant := -62_167_219_200_000
  const MaxIsoInstant := 253_402_300_799_999

  /** A fetched row, each column possibly null. A timestamp column is given as the
      instant `new Date(…)` reads from it, `None` when that is an invalid date. */
  datatype RawUser = RawUser(id: Option<string>, fullName: Option<string>, email: Option<string>,
                             role: Option<string>, active: Option<bool>,
                             createdAt: Option<int>, updatedAt: Option<int>)

  /** A record of the response, as the schema names its fields. */
  datatype User = User(id: string, fullName: string, email: string, role: string, active: bool,
                       createdAt: int, updatedAt: int)

  /** The schema's datetime check on the output of `toISOString`. */
  predicate IsoTimestamp(t: Option<int>)
  {
    t.Some? && MinIsoInstant <= t.value <= MaxIsoInstant
  }

  /** What the schema demands of a mapped row; `isEmail` is the schema's e-mail format. */
  predicate Valid(u: RawUser, isEmail: string -> bool)
  {
    && u.id.Some? && |u.id.value| >= 1
    && u.fullName.Some? && 1 <= |u.fullName.value| <= MaxNameLength
    && u.email.Some? && isEmail(u.email.value)
    && u.role.Some? && |u.role.value| >= 1
    && u.active.Some?
    && IsoTimestamp(u.createdAt) && IsoTimestamp(u.updatedAt)
  }

  /** `UserSchema.parse({...})`: the record, or `None` where the parse throws. */
  function ParseRow(u: RawUser, isEmail: string -> bool): (r: Option<User>)
    ensures r.Some? <==> Valid(u, isEmail)
    ensures r.Some? ==> r.value == User(u.id.value, u.fullName.value, u.email.value, u.role.value,
                                        u.active.value, u.createdAt.value, u.updatedAt.value)
  {
    if Valid(u, isEmail) then
      Some(User(u.id.value, u.fullName.value, u.email.value, u.role.value, u.active.value,
                u.createdAt.value, u.updatedAt.value))
    else None
  }

  /** What a returned record satisfies, stated on the record itself. */
  predicate Conforms(v: User, isEmail: string -> bool)
  {
    && |v.id| >= 1 && 1 <= |v.fullName| <= MaxNameLength && isEmail(v.email) && |v.role| >= 1
    && MinIsoInstant <= v.createdAt <= MaxIsoInstant && MinIsoInstant <= v.updatedAt <= MaxIsoInstant
  }

  /** `full_name` becomes `fullName`, `created_at` and `updated_at` become `createdAt` and
      `updatedAt`, and the other columns keep their names. */
  predicate MappedFrom(v: User, u: RawUser)
  {
    && u.id == Some(v.id) && u.fullName == Some(v.fullName) && u.email == Some(v.email)
    && u.role == Some(v.role) && u.active == Some(v.active)
    && u.createdAt == Some(v.createdAt) && u.updatedAt == Some(v.updatedAt)
  }

  /** The records the loop keeps: the reference the loop is checked against. */
  function Kept(rows: seq<RawUser>, isEmail: string -> bool): seq<User>
  {
    if |rows| == 0 then []
    else
      var last := ParseRow(rows[|rows| - 1], isEmail);
      Kept(rows[..|rows| - 1], isEmail) + (if last.Some? then [last.value] else [])
  }

  /** The `for … of data` loop with its `try`/`catch`: each row that parses is pushed,
      each row that does not is skipped. */
  method ValidateRows(rows: seq<RawUser>, isEmail: string -> bool) returns (validated: seq<User>)
    ensures validated == Kept(rows, isEmail)
  {
    validated := [];
    var i := 0;
    while i < |rows|
      invariant 0 <= i <= |rows|
      invariant validated == Kept(rows[..i], isEmail)
    {
      assert rows[..i + 1][..i] == rows[..i];
      var user := ParseRow(rows[i], isEmail);
      if user.Some? {
        validated := validated + [user.value];
      }
      i := i + 1;
    }
    assert rows[..i] == rows;
  }

  /** The positions of the rows that parse, in increasing order. */
  function KeptPositions(rows: seq<RawUser>, isEmail: string -> bool): (ps: seq<nat>)
    ensures forall k :: 0 <= k < |ps| ==> ps[k] < |rows| && Valid(rows[ps[k]], isEmail)
  {
    if |rows| == 0 then []
    else
      var n := |rows| - 1;
      KeptPositions(rows[..n], isEmail) + (if Valid(rows[n], isEmail) then [n] else [])
  }

  /** The response is an order-preserving selection of the rows: record `k` is the parse
      of row `ps[k]`, the positions strictly increase, and every row that parses has its
      position among them. */
  lemma {:induction false} KeptIsSelection(rows: seq<RawUser>, isEmail: string -> bool)
    ensures var out, ps := Kept(rows, isEmail), KeptPositions(rows, isEmail);
      && |out| == |ps|
      && (forall k :: 0 <= k < |ps| ==> out[k] == ParseRow(rows[ps[k]], isEmail).value)
      && (forall k, m :: 0 <= k < m < |ps| ==> ps[k] < ps[m])
      && (forall i :: 0 <= i < |rows| && Valid(rows[i], isEmail) ==> i in ps)
  {
    if |rows| > 0 {
      var n := |rows| - 1;
      var init := rows[..n];
      KeptIsSelection(init, isEmail);
      assert forall i :: 0 <= i < n ==> init[i] == rows[i];
    }
  }

  /** The response never has more records than the table has rows, and has as many
      exactly when every row parses. */
  lemma {:induction false} KeptLength(rows: seq<RawUser>, isEmail: string -> bool)
    ensures |Kept(rows, isEmail)| <= |rows|
    ensures |Kept(rows, isEmail)| == |rows| <==> forall i :: 0 <= i < |rows| ==> Valid(rows[i], isEmail)
  {
    if |rows| > 0 {
      var n := |rows| - 1;
      KeptLength(rows[..n], isEmail);
      assert forall i :: 0 <= i < n ==> rows[..n][i] == rows[i];
    }
  }

  /** Every returned record satisfies the schema, and its fields are the row's columns
      under their new names. */
  lemma {:induction false} KeptConforms(rows: seq<RawUser>, isEmail: string -> bool)
    ensures forall v :: v in Kept(rows, isEmail) ==> Conforms(v, isEmail)
    ensures forall v :: v in Kept(rows, isEmail) ==> exists i :: 0 <= i < |rows| && MappedFrom(v, rows[i])
  {
    if |rows| > 0 {
      var n := |rows| - 1;
      KeptConforms(rows[..n], isEmail);
      assert forall i :: 0 <= i < n ==> rows[..n][i] == rows[i];
    }
  }

  /** Keeping distributes over concatenation: the rows are judged one by one. */
  lemma {:induction false} KeptAppend(a: seq<RawUser>, b: seq<RawUser>, isEmail: string -> bool)
    ensures Kept(a + b, isEmail) == Kept(a, isEmail) + Kept(b, isEmail)
  {
    if |b| == 0 {
      assert a + b == a;
    } else {
      var n := |b| - 1;
      assert (a + b)[..|a + b| - 1] == a + b[..n];
      KeptAppend(a, b[..n], isEmail);
    }
  }

  /** The route's answer. */
  datatype Response = Records(users: seq<User>) | Failure(status: nat, message: string)

  /** The store's answer to the select: `error` when it failed (its message possibly
      missing), and `data` when it returned rows. */
  datatype Query = Query(error: Option<Option<string>>, data: Option<seq<RawUser>>)

  /** `GET`: credentials first, then the query, then the row loop. */
  method Get(url: Option<string>, key: Option<string>, q: Query, isEmail: string -> bool) returns (r: Response)
    ensures !Truthy(url) || !Truthy(key) ==> r == Failure(500, CredentialsMissing)
    ensures Truthy(url) && Truthy(key) && (q.error.Some? || q.data.None?) ==>
      r == Failure(400, if q.error.Some? && q.error.value.Some? then q.error.value.value else NoData)
    ensures Truthy(url) && Truthy(key) && q.error.None? && q.data.Some? ==>
      r == Records(Kept(q.data.value, isEmail))
    ensures r.Records? ==> forall v :: v in r.users ==> Conforms(v, isEmail)
  {
    if !Truthy(url) || !Truthy(key) {
      return Failure(500, CredentialsMissing);
    }
    if q.error.Some? || q.data.None? {
      var message := if q.error.Some? && q.error.value.Some? then q.error.value.value else NoData;
      return Failure(400, message);
    }
    var users := ValidateRows(q.data.value, isEmail);
    KeptConforms(q.data.value, isEmail);
    return Records(users);
  }
}
